=== FILE: README.md ===
# django-messages, modelled in Dafny

A model of the core of django-messages, a private-messaging application for
Django. Users send each other messages. A message can reply to another one,
and every message belongs to a conversation (a thread) named by its first
message. Each user has three mailboxes:

- the inbox: threads holding a message they received and have not deleted;
- the outbox: threads holding a message they sent and have not deleted;
- the trash: threads holding a message of theirs that they did delete.

Deletion only stamps the user's own deletion column. A management command
later removes the messages that both parties deleted long enough ago.

The model covers:

- the message table and `Message.save`;
- the manager's mailbox and thread queries, and the unread count;
- the compose form's validation and save;
- the two user fields (the comma-separated one and the single-user one) and
  the comma-separated widget's rendering;
- the state-changing part of the delete, undelete, reply and view pages;
- the `remove_deleted_messages` command.

Modules follow the program's files:

- `Base`: option and result types, users, Python truthiness.
- `Ordering`: a stable insertion sort.
- `Models` (`models.py`): the message record and the store.
- `Manager` (`models.py`): the `MessageManager` queries and `inbox_count_for`.
- `Fields` (`fields.py`).
- `Forms` (`forms.py`).
- `Views` (`views.py`).
- `Sweep` (`management/commands/remove_deleted_messages.py`).

The database table is an immutable map from primary key to message, plus the
auto-increment counter. Every operation is a pure function from the old
table to the new one. The clock, the user table and the pluggable callables
(`recipient_filter`, `quote`) are parameters.

How the mailbox queries group rows: `_conversations` groups rows by
`conversation` and takes the largest id of each group. Each mailbox then
applies `.filter(...)` to that grouped queryset. Django places such a filter
in the WHERE clause, so it selects rows *before* they are grouped. A thread
is therefore represented by its newest message that passes the mailbox's
filter, not by the thread's newest message
(`django_messages/models.py:36-41`, `:48-53`, `:60-69`).

## Model

| member | source | states |
|---|---|---|
| Ordering.Insert | django_messages/models.py:79 | inserting into a list keeps every element and adds the new one once (multiset and length) |
| Ordering.InsertSorted | django_messages/models.py:79 | inserting into a list ordered by the key keeps it ordered |
| Ordering.InsertDistinct | django_messages/models.py:79 | inserting an absent element into a repetition-free list keeps it repetition-free |
| Ordering.SortBy | django_messages/models.py:79 | the sort is a permutation of its input (same multiset and length), ordered by the key, and introduces no repetition |
| Models.EmptyStore | django_messages/models.py:92-106 | the empty table has no rows and satisfies the store invariant |
| Models.Save | django_messages/models.py:129-132 | an object without an id gets `sent_at = now` and goes into a row whose id was not in use; an object with an id is stored under that id unchanged; every other row is kept and the counter stays ahead of all ids |
| Models.SaveStampsOnce | django_messages/models.py:129-132 | saving a message again, at any later time, leaves its first `sent_at` stamp and the table as they were |
| Models.UpdateIgnoresClock | django_messages/models.py:130-131 | saving an object that already has an id gives the same result at any time and stores its own `sent_at` |
| Models.NewAndRepliedFlags | django_messages/models.py:110-120 | `new()` holds exactly when `read_at` is null, and `replied()` exactly when `replied_at` is set, with both directions checked on stamped and cleared records |
| Manager.WhereBelow | django_messages/models.py:36-41 | the scan holds exactly the rows below the bound that satisfy the predicate, in increasing id order |
| Manager.Where | django_messages/models.py:36-41 | a filtered query holds exactly the rows satisfying the predicate, each once and in id order |
| Manager.OldestFirst | django_messages/models.py:79 | `order_by('sent_at')` permutes its input into non-decreasing `sent_at` order |
| Manager.NewestFirst | django_messages/models.py:134-135 | the default `-sent_at` ordering permutes its input into non-increasing `sent_at` order |
| Manager.LatestPerConversation | django_messages/models.py:15-29 | `values('conversation').annotate(Max('id'))` maps each conversation in the input to an input row of that conversation, and that row's id is at least every input id of the same conversation |
| Manager.Representatives | django_messages/models.py:15-41 | each conversation with a row passing the mailbox filter maps to the largest id among such rows, and to no other row |
| Manager.Listing | django_messages/models.py:36-41 | the mailbox listing holds exactly the representatives, each once, newest first |
| Manager.ValuesOnePerConversation | django_messages/models.py:15-29 | a repetition-free list of group maxima never shows two rows of one conversation |
| Manager.ListedAreShownOnce | django_messages/models.py:36-41 | every listed row passes the mailbox filter, and no conversation is listed twice |
| Manager.ListedAreNewest | django_messages/models.py:15-29 | a listed row is the newest row of its conversation that passes the filter |
| Manager.EveryConversationListed | django_messages/models.py:36-41 | every conversation holding a row that passes the filter is listed |
| Manager.AloneIsListed | django_messages/models.py:36-41 | a row that passes the filter and is alone in its conversation is listed itself |
| Manager.InboxFor | django_messages/models.py:31-41 | the inbox lists, newest first, for each thread holding a message the user received and has not deleted, the newest such message, and nothing else |
| Manager.OutboxFor | django_messages/models.py:43-53 | the same for the messages the user sent and has not deleted |
| Manager.TrashFor | django_messages/models.py:55-69 | the same for the messages the user sent or received and deleted on their own side (the union of the two filters) |
| Manager.GetConversation | django_messages/models.py:71-79 | the thread holds exactly the rows whose conversation is the given id, each once, oldest first |
| Manager.GetConversations | django_messages/models.py:81-89 | the threads hold exactly the rows whose conversation is one of the given ids, each once, oldest first |
| Manager.ScanSplits | django_messages/models.py:88 | filtering on a disjoint union of two predicates returns as many rows as the two filters together |
| Manager.ScanEmpty | django_messages/models.py:88 | filtering on a predicate no row satisfies returns nothing |
| Manager.ConversationsCount | django_messages/models.py:81-89 | for distinct conversation ids, `get_conversations` returns as many rows as the threads' sizes add up to, so no row is lost or repeated |
| Manager.SplitFirstThread | django_messages/models.py:88 | `conversation__in` on a list splits into its first id and the rest, and the two parts do not overlap |
| Manager.InboxCountFor | django_messages/models.py:139-144 | the count is the number of messages the user received, has not read and has not deleted |
| Fields.Split | django_messages/fields.py:46 | `split(',')` returns at least one piece, and no piece contains the separator |
| Fields.SplitWithoutSep | django_messages/fields.py:46 | splitting a string without the separator gives the string itself |
| Fields.SplitAtFirst | django_messages/fields.py:46 | splitting cuts at the first separator and splits the rest |
| Fields.TrimLeft | django_messages/fields.py:47 | the result is a suffix of the input, only whitespace (Python 2's `unicode` whitespace, U+180E included) was cut, and it does not start with whitespace |
| Fields.TrimRight | django_messages/fields.py:47 | the result is a prefix of the input, only whitespace (Python 2's `unicode` whitespace, U+180E included) was cut, and it does not end with whitespace |
| Fields.Strip | django_messages/fields.py:47 | Python 2's `unicode.strip()` returns a piece of its input with no whitespace at either end, cutting only whitespace |
| Fields.StripCutsSpace | django_messages/fields.py:47 | trimming the left and then the right end leaves no whitespace at either end and cuts off only whitespace |
| Fields.StripStripped | django_messages/fields.py:47 | stripping a string without surrounding whitespace changes nothing |
| Fields.StripAfterBlank | django_messages/fields.py:26 | stripping removes the blank that `', '.join` puts before a name |
| Fields.Usernames | django_messages/fields.py:26 | the username list has one entry per user, in order |
| Fields.Lookup | django_messages/fields.py:48 | `User.objects.filter(username__in=names)` returns exactly the users with one of the names, and unique names stay unique |
| Fields.FindUser | django_messages/fields.py:77 | `User.objects.get(username=...)` finds a user with that name, or reports that none exists |
| Fields.FindUserUnique | django_messages/fields.py:77 | with unique usernames, looking up a user's name finds that user |
| Fields.Render | django_messages/fields.py:22-27 | `None` renders as empty, a string as itself, an empty list as empty; a list of users whose usernames hold no comma renders as text whose comma-split pieces are the usernames, each after the first preceded by one blank |
| Fields.SplitJoinNames | django_messages/fields.py:26 | splitting a `', '`-joined list of comma-free names at commas gives back the blank-prefixed names |
| Fields.SplitAfterBlank | django_messages/fields.py:26 | the blank after a comma becomes part of the next piece |
| Fields.Names | django_messages/fields.py:46-47 | the name set holds exactly the stripped comma-separated pieces of the text, so duplicates collapse; each name is stripped and holds no comma |
| Fields.Partition | django_messages/fields.py:51-57 | a user is kept exactly when the filter does not return the literal `False` for them; the invalid names are exactly the rejected users' names; kept and rejected together account for all users |
| Fields.UnknownAreUnmatched | django_messages/fields.py:48-49 | the symmetric difference of the requested names and the found users' names is exactly the requested names no user has |
| Fields.CleanNames | django_messages/fields.py:46-62 | the users are returned exactly when every name is known and no matched user is rejected; the result is then exactly the users with those names; otherwise the error lists exactly the unknown names, and every rejected user's name |
| Fields.CommaSeparatedClean | django_messages/fields.py:39-62 | a required field refuses exactly the blank value; a blank optional value gives an empty list; a list passes through; a string is cleaned name by name |
| Fields.RenderedNames | django_messages/fields.py:22-27 | for a non-empty list of users whose usernames are stripped and comma-free, the names read back from the rendered list are exactly the users' names |
| Fields.StripSpaced | django_messages/fields.py:26 | stripping each piece of a `', '` join gives back the names |
| Fields.SetOfStripped | django_messages/fields.py:47 | the set of stripped pieces is exactly the set of names they strip to |
| Fields.SameNameSameUser | django_messages/fields.py:77 | with unique usernames, two users of the table with the same name are the same user |
| Fields.RenderCleanRoundTrip | django_messages/fields.py:22-62 | cleaning the rendered text of a non-empty list of accepted users from the table, whose usernames are non-empty, stripped and comma-free, succeeds and gives back exactly those users |
| Fields.ParsedAreListed | django_messages/fields.py:48-49 | when the names read back are exactly the users' names, every name is known and the users found are exactly those users |
| Fields.RemoveFirst | django_messages/fields.py:56 | `list.remove` takes exactly one copy of the element out of the list's contents when it is present, and changes nothing when it is absent |
| Fields.RemoveFirstCutsFirst | django_messages/fields.py:56 | `list.remove` cuts out the first occurrence of the element, leaving everything before and after it in order |
| Fields.FilterAsWritten | django_messages/fields.py:51-57 | the loop as written only appends to the invalid names, removes as many users as it appends names, and keeps the list whole when it removes nobody |
| Fields.FilterAsWrittenDrops | django_messages/fields.py:51-57 | every user the loop as written drops is rejected, the users it keeps come from the list, and every name it appends is the name of a rejected user |
| Fields.DropsAtRejection | django_messages/fields.py:54-57 | the same three facts at a step where the visited user is rejected and removed from the list |
| Fields.RemovedRejected | django_messages/fields.py:55-57 | one rejection of the loop: the user removed is rejected, its name is appended, and what the rest of the loop keeps and reports carries over to the list before the removal |
| Fields.FilterAsWrittenRejects | django_messages/fields.py:51-57 | the loop as written records some invalid name exactly when some user it has not yet visited is rejected |
| Fields.AsWrittenSameOutcome | django_messages/fields.py:39-62 | the field as written accepts exactly the values the corrected one accepts, and then returns the same users |
| Fields.CommaSeparatedCleanAsWritten | django_messages/fields.py:39-62 | `CommaSeparatedUserField.clean` with the loop as written succeeds exactly when the corrected field does, with the same users; when it reports bad names, the unknown names are the same as the corrected field's |
| Fields.FiltersAgree | django_messages/fields.py:51-57 | the loop as written reports a refused user exactly when the corrected filter does, and when neither does, both keep the whole list |
| Fields.KeptAllWhenNoneRejected | django_messages/fields.py:53-57 | when no user is rejected, every user is kept and no name is invalid |
| Fields.AsWrittenSkipsSecondRejection | django_messages/fields.py:54-57 | with two rejected users, the loop as written reports only the first, where both are rejected |
| Fields.BaseUserClean | django_messages/fields.py:72-84 | a required field refuses exactly the empty value; an optional empty value gives no user; a non-empty name fails exactly when no accepted user has it, and gives that user when one does; the only errors are these two |
| Fields.BaseUserCleanFinds | django_messages/fields.py:72-84 | the name of an accepted user of the table cleans to that user |
| Forms.Validate | django_messages/forms.py:16-37 | the form is valid exactly when it has a sender, a subject, a body and the name of an accepted user; the cleaned data copies them; each error, the recipient error included, is reported exactly when its cause holds |
| Forms.SaveForm | django_messages/forms.py:39-73 | saving inserts exactly one message under a fresh id, with the form's fields and `sent_at = now`; a new message is its own thread; a reply joins the parent's thread and stamps the parent's `replied_at`; no other row changes; the store invariant is kept |
| Forms.NewThreadUnshared | django_messages/forms.py:62-64 | no stored message shares the thread a new message starts |
| Forms.NewThreadAlone | django_messages/forms.py:59-64 | the thread of a new message holds exactly that message |
| Forms.ReplyJoinsThread | django_messages/forms.py:54-59 | after a reply, the parent's thread holds exactly its old messages and the reply |
| Forms.ReplyKeepsThreads | django_messages/forms.py:54-59 | a reply changes the thread of no stored message and takes the parent's thread |
| Forms.SentReachesMailboxes | django_messages/forms.py:59-65 | a newly sent message is listed in the recipient's inbox and the sender's outbox |
| Views.AnyWhere | django_messages/views.py:154-156 | an update's row count is non-zero exactly when some listed row matches |
| Views.Mark | django_messages/views.py:154-155 | the user's own deletion column is set (recipient and/or sender side) and nothing else changes |
| Views.MarkThreads | django_messages/views.py:154-155 | every row of the listed threads gets the user's columns marked; all other rows are unchanged |
| Views.Matched | django_messages/views.py:154-157 | `result1 or result2` holds exactly when some row of the listed threads was sent or received by the user |
| Views.SomeRowMatched | django_messages/views.py:154-157 | over the rows of the listed threads, either update matches a row exactly when the user is a party of one of them |
| Views.Delete | django_messages/views.py:129-161 | the page answers (not 404) exactly for a POST with ids whose threads hold a message of the user's; the store is then the threads with the user's side stamped `now` |
| Views.Undelete | django_messages/views.py:164-189 | the same condition, with the user's side cleared |
| Views.MarkKeepsThreads | django_messages/views.py:154-155 | marking changes no row's thread or parties |
| Views.DeleteKeepsWellFormed | django_messages/views.py:129-161 | deleting keeps the store invariant |
| Views.MarkUndone | django_messages/views.py:181-182 | clearing the mark on a row whose user side was clear gives back the row |
| Views.MarkThenClear | django_messages/views.py:154-155 | marking and then clearing the same threads gives back a store whose user side was clear |
| Views.UndeleteAfterDelete | django_messages/views.py:129-189 | when some row of the listed threads is the user's and the user's side of them was clear, the delete succeeds and undeleting the same threads restores the store exactly |
| Views.DeletedRowsMove | django_messages/views.py:154-155 | after a delete every row of the threads is out of the user's inbox and outbox, and each of the user's rows is in the trash filter |
| Views.DeleteMovesToTrash | django_messages/views.py:129-161 | after a delete no listed thread shows in the user's inbox or outbox, and every such thread the user took part in shows in the trash |
| Views.UserById | django_messages/views.py:196-199 | following a user key finds that user in the table, or there is none |
| Views.CheckParent | django_messages/views.py:192-207 | 404 exactly when the user is neither sender nor recipient; otherwise the reply goes to the other party, under "Re: " plus the subject, with the sender's quoted body |
| Views.Reply | django_messages/views.py:95-126 | 404 exactly for a missing parent or a stranger; only a successful POST changes the store; it succeeds exactly when the body is non-empty and the other party is an accepted, named user; the stored reply has the forced recipient and subject, the posted body and the parent link, and the parent is marked replied; the reply is the only row added and every other row is left as it was |
| Views.ReplyThreads | django_messages/views.py:110-116 | a successful reply keeps the store invariant and joins the parent's thread |
| Views.MarkRead | django_messages/views.py:232-233 | `read_at = now` is set on exactly the unread messages of the thread that the user received; nothing else changes |
| Views.View | django_messages/views.py:209-233 | 404 exactly when the thread is empty or the user is not a party of its latest message; otherwise the thread oldest first, reply data for the latest message, and the thread marked read |
| Views.MarkReadClearsThread | django_messages/views.py:232-233 | after a view the user has nothing unread in the thread, and messages of other threads are unchanged |
| Views.MarkReadLowersCount | django_messages/views.py:232-233 | viewing lowers the unread count by exactly the marked messages the user had not deleted |
| Views.UnreadLeft | django_messages/views.py:232-233 | a message is unread after a view exactly when it was before and the view did not mark it |
| Views.MarkReadIdempotent | django_messages/views.py:232-233 | viewing a thread twice changes nothing more than viewing it once |
| Sweep.Handle | django_messages/management/commands/remove_deleted_messages.py:24-37 | a dry run changes nothing and reports the number of selected messages; otherwise exactly the messages not both deleted at or before `now - max_age` remain, unchanged |
| Sweep.HandleKeepsWellFormed | django_messages/management/commands/remove_deleted_messages.py:24-37 | the sweep keeps the store invariant |
| Sweep.HandleIdempotent | django_messages/management/commands/remove_deleted_messages.py:24-37 | a second sweep with the same limit removes nothing |
| Sweep.OnlySenderDeletedSurvives | django_messages/tests/test_command_remove_deleted_messages.py:30-45 | a message only its sender deleted is kept |
| Sweep.OnlyRecipientDeletedSurvives | django_messages/tests/test_command_remove_deleted_messages.py:47-62 | a message only its recipient deleted is kept |
| Sweep.RecentDeletionSurvives | django_messages/tests/test_command_remove_deleted_messages.py:64-98 | a message that either party deleted after the limit is kept |
| Sweep.ExpiredRemoved | django_messages/tests/test_command_remove_deleted_messages.py:100-116 | a message both parties deleted at or before the limit is removed |
| Sweep.Cascade | django_messages/models.py:100-101 | the rows the delete collector gathers are the least set containing the selection that is closed under the parent and conversation references |
| Sweep.HandleAsWritten | django_messages/management/commands/remove_deleted_messages.py:33-37 | the command as written behaves like the corrected one in a dry run and prints nothing otherwise |
| Sweep.AsWrittenRemovesThread | django_messages/management/commands/remove_deleted_messages.py:37 | as written, every message of a thread whose root is selected is removed, whoever deleted it |
| Sweep.AsWrittenRemovesLiveReply | django_messages/management/commands/remove_deleted_messages.py:37 | a concrete store where the command as written removes a reply nobody deleted, which the selection keeps |
| Sweep.AsWrittenRemovesSelection | django_messages/management/commands/remove_deleted_messages.py:37 | the command as written removes at least the selected rows, and exactly them when no other row refers to one |

## Left out

- Templates, redirects, success URLs, `?next=`, `login_required` and the flash messages (`message_set.create`) are not modelled. They decide no state.
- URL routing, `select_related` and the `related` property are not modelled. `select_related` only prefetches and changes no result.
- The `inbox`, `outbox` and `trash` views only render the queries `Manager.InboxFor`, `Manager.OutboxFor` and `Manager.TrashFor`.
- The `compose` view (`django_messages/views.py:59-92`) is not modelled as a function of its own. On a valid POST it validates and saves the form, which `Forms.Validate` and `Forms.SaveForm` model with no parent. Its flash message, redirect and GET prefill (the recipient lookup and its fallback redirect) are left out.
- Notifications are not modelled. `notification = None` (`django_messages/forms.py:11`) makes the sending code at `forms.py:66-72` dead. The e-mail fallback on `post_save` calls `utils.py`, which is not part of this model.
- `quote` is a parameter. `format_quote` and `utils.py` are not part of this model.
- The clock is a parameter. `ComposeForm.save` reads `datetime.now()` twice, for the parent's `replied_at` and in `Message.save`. The model uses one `now` for both.
- `DELETED_MESSAGE_MAX_AGE` is a parameter. The command's `print` becomes the count returned in `Outcome.printed`.
- The conversion between `time()` and `datetime` is not modelled. Timestamps are integers.
- Models.Save: the counter models the auto-increment sequence. A row saved under an explicit id moves the counter past it.
- Delete and undelete issue two updates, one per deletion column. The model folds them into one rewrite, `Views.Mark`. The two updates write different columns and select on columns neither writes, so the result is the same.
- Non-numeric ids in `request.POST.getlist('ids')` are not modelled. Ids are numbers.
- User foreign keys are user ids. The user table is a list; its order stands for the database's order, which determines the order of the users a lookup returns.
- `Views.Reply`, `Views.View` and `Views.CheckParent` require `PartiesKnown`: every stored sender and recipient exists in the user table. `Fields.BaseUserClean`, `Fields.CommaSeparatedClean` and `Forms.Validate` require `UniqueNames`: usernames are unique. The source does not enforce the first: `sender` and `recipient` are nullable (`django_messages/models.py:98-99`), and the model's parties are plain user ids, so a message without a sender or recipient, and the view paths that would follow a null party, are not modelled. Usernames are unique in Django's user table.
- The character fields do not strip their values in the Django version this code targets. The model takes the posted strings as they are, as the source does.
- Fields.CommaSeparatedClean: on a blank optional value the source returns `''`. The model returns an empty list, which Django treats the same way.
- Forms.Validate: a form built without a sender fails in `clean` with an `AttributeError`, because `self.sender` was never assigned (`django_messages/forms.py:31-36`). The model reports it as the error `UnknownSender`.
- `ComposeForm.recipient` uses `UserField`, which `forms.py` never imports. The model uses the field that `django_messages/fields.py:91-92` binds to that name, `BaseUserField`, with the recipient filter that `__init__` installs.
- The reply view puts the recipient `User` into the POST data. The character field turns it into the username, which is what the model posts.
- The texts and translation of error messages are not modelled. Errors are datatype constructors. The comma-separated field's message is modelled as its unknown names and its invalid names.
- Subject truncation is not modelled. The form tests expect it, but no code in the core performs it.
- `HIDE_DELETED_MESSAGES_AFTER` is not modelled. No code of the core reads it.
- `test_command_clean_deleted_messages.py` exercises a command that is not part of the core.
- `Message.__unicode__` and `get_absolute_url` are not modelled. They are presentation only.
- Views.CheckParent: the reply subject is the translated template `_(u"Re: %(subject)s")` (`django_messages/views.py:203`). The model uses the untranslated English text, `"Re: "` followed by the subject.
- Views.Reply: the forced subject is the same translated template, and the model uses the same untranslated `"Re: "` prefix.
- Views.View: the reply data's subject uses the same untranslated `"Re: "` prefix.
- Views.View: the contract states the reply data's subject. The recipient and the quoted body follow from `Views.CheckParent`, whose contract states them.
- Manager.NewestFirst: rows with a null `sent_at` are not ordered the way a database orders NULLs. Every row of a well-formed store has a `sent_at`, so this never matters there.
- Fields.Render: usernames that contain a comma or surrounding whitespace are not covered. For them the round trip from rendering to cleaning really fails, because `', '.join` then yields pieces that are not the usernames, and Django does not forbid such usernames.
- Manager.OldestFirst: rows with a null `sent_at` are not ordered the way a database orders NULLs either. Only well-formed stores are free of such rows.
- Manager.GetConversation: it orders through Manager.OldestFirst, so it has the same gap for a null `sent_at`.
- Manager.OldestFirst: rows with equal `sent_at` come out in ascending id order, because the sort is stable over a scan in id order. A database leaves the order of such ties unspecified, and `Views.View` decides its 404 from the thread's last message, so with ties it depends on this choice.
- Views.View: the thread it shows comes from Manager.GetConversation, so it has the same gap for a null `sent_at`.

## Findings

| source | as written | input that shows it | evidently intended | confidence | as-written member | corrected member |
|---|---|---|---|---|---|---|
| django_messages/fields.py:54-57 | the loop removes a rejected user from the list it is iterating over, so it skips the user right after each removal | users `ann` and `bob`, both named in the field, and a filter returning `False` for everyone: the error names only `ann` | every rejected user is named in the error | not executed | Fields.AsWrittenSkipsSecondRejection | Fields.Partition |
| django_messages/management/commands/remove_deleted_messages.py:37 | `query.delete()` cascades through the `parent_msg` and `conversation` foreign keys (`django_messages/models.py:100-101`), so it also removes replies and other thread members that nobody deleted | a thread root both parties deleted long ago and a reply in its thread that neither party deleted: the reply is removed | only the messages that both parties deleted are removed, as the command's docstring and the delete view's comment say | not executed | Sweep.AsWrittenRemovesLiveReply | Sweep.Handle |

Which behaviour the rest of the model uses:

- The comma-separated field as written (`Fields.CommaSeparatedCleanAsWritten`) accepts exactly the same values as the corrected field and returns the same users (`Fields.AsWrittenSameOutcome`). Only the error's list of invalid names differs.
- The corrected sweep is `Sweep.Handle`. `Sweep.HandleAsWritten` is the command as written.

=== FILE: base.dfy ===
/** Shared vocabulary of the message store: optional values, results, the
    identifiers the database hands out, abstract time and users. */
module Base {

  /** A nullable column or an optional argument. */
  datatype Option<+T> = None | Some(value: T)

  /** A computation that either yields a value or fails with an error. */
  datatype Result<+T, +E> = Ok(value: T) | Err(error: E)

  /** The primary key of a user row. */
  type UserId = nat

  /** The primary key of a message row: auto-increment keys are positive,
      so a saved message's id is never falsy. */
  type MsgId = n: nat | n > 0 witness 1

  /** An abstract point in time. The model never reads a clock: every
      operation that stamps a time receives `now` as an argument. */
  type Time = int

  /** A row of the user table, as far as messaging uses it. */
  datatype User = User(id: UserId, username: string)

  /** The value an arbitrary recipient filter (a Python callable) may
      return, distinguished only as far as `is False` and truthiness can
      tell values apart. */
  datatype PyValue = PyFalse | PyTrue | PyNone | PyOther(truthy: bool) {

    /** The literal `False` object: what `value is False` accepts. */
    predicate IsLiteralFalse() {
      PyFalse?
    }

    /** What `if value:` accepts. */
    predicate Truthy() {
      PyTrue? || (PyOther? && truthy)
    }
  }

  /** An optional recipient filter: no filter at all, or a callable on users. */
  type RecipientFilter = Option<User -> PyValue>
}

=== FILE: fields.dfy ===
/** Recipient fields: the comma-separated user list field with its text
    widget, and the single-user field. Users come from a directory, a
    sequence of users with unique usernames standing in for the user table. */
module Fields {
  import opened Base

  // ---------------------------------------------------------------------
  // Strings: splitting, joining, stripping
  // ---------------------------------------------------------------------

  /** Splits at every `sep`, keeping empty pieces: there is always one more
      piece than there are separators. */
  function Split(s: string, sep: char): (r: seq<string>)
    ensures |r| >= 1
    ensures forall k :: 0 <= k < |r| ==> sep !in r[k]
    decreases |s|
  {
    if |s| == 0 then [""]
    else
      var rest := Split(s[1..], sep);
      if s[0] == sep then [""] + rest
      else [[s[0]] + rest[0]] + rest[1..]
  }

  /** A piece without the separator is left whole. */
  lemma {:induction false} SplitWithoutSep(a: string, sep: char)
    requires sep !in a
    ensures Split(a, sep) == [a]
    decreases |a|
  {
    if |a| > 0 {
      assert a[0] in a;
      SplitWithoutSep(a[1..], sep);
      assert [a[0]] + a[1..] == a;
    }
  }

  /** Splitting at the first separator. */
  lemma {:induction false} SplitAtFirst(a: string, sep: char, b: string)
    requires sep !in a
    ensures Split(a + [sep] + b, sep) == [a] + Split(b, sep)
    decreases |a|
  {
    if |a| == 0 {
      assert a + [sep] + b == [sep] + b;
      assert ([sep] + b)[1..] == b;
    } else {
      SplitAtFirst(a[1..], sep, b);
      assert (a + [sep] + b)[1..] == a[1..] + [sep] + b;
      assert [a[0]] + a[1..] == a;
    }
  }

  /** The characters Python 2's `unicode.strip` removes by default: the
      ASCII separators, and the characters Unicode 5.2 classes as spaces,
      line or paragraph separators (this includes U+180E, which later
      Unicode versions no longer class as a space). */
  predicate IsSpace(c: char) {
    || c == ' ' || c == '\t' || c == '\n' || c == '\r' || c == '\U{0B}' || c == '\U{0C}'
    || c == '\U{1C}' || c == '\U{1D}' || c == '\U{1E}' || c == '\U{1F}'
    || c == '\U{85}' || c == '\U{A0}' || c == '\U{1680}' || c == '\U{180E}'
    || ('\U{2000}' <= c <= '\U{200A}')
    || c == '\U{2028}' || c == '\U{2029}' || c == '\U{202F}' || c == '\U{205F}' || c == '\U{3000}'
  }

  /** No whitespace at either end. */
  predicate Stripped(s: string) {
    |s| == 0 || (!IsSpace(s[0]) && !IsSpace(s[|s| - 1]))
  }

  function TrimLeft(s: string): (r: string)
    ensures |r| <= |s| && r == s[|s| - |r|..]
    ensures |r| == 0 || !IsSpace(r[0])
    ensures forall k :: 0 <= k < |s| - |r| ==> IsSpace(s[k])
    decreases |s|
  {
    if |s| > 0 && IsSpace(s[0]) then TrimLeft(s[1..]) else s
  }

  function TrimRight(s: string): (r: string)
    ensures |r| <= |s| && r == s[..|r|]
    ensures |r| == 0 || !IsSpace(r[|r| - 1])
    ensures forall k :: |r| <= k < |s| ==> IsSpace(s[k])
    decreases |s|
  {
    if |s| > 0 && IsSpace(s[|s| - 1]) then TrimRight(s[..|s| - 1]) else s
  }

  /** `r` is the part of `s` from position `i` on, and only whitespace lies
      around it. */
  predicate CutOut(s: string, r: string, i: int) {
    0 <= i <= |s| - |r| && r == s[i..i + |r|] &&
    (forall k :: 0 <= k < i ==> IsSpace(s[k])) &&
    (forall k :: i + |r| <= k < |s| ==> IsSpace(s[k]))
  }

  /** `str.strip()`: the longest middle part without whitespace at its ends;
      everything cut off is whitespace. */
  function Strip(s: string): (r: string)
    ensures Stripped(r)
    ensures exists i :: CutOut(s, r, i)
  {
    var l := TrimLeft(s);
    var r := TrimRight(l);
    StripCutsSpace(s, l, r);
    r
  }

  /** Trimming both ends leaves no whitespace at either end, and the part
      kept starts where the left trim stopped. */
  lemma StripCutsSpace(s: string, l: string, r: string)
    requires |l| <= |s| && l == s[|s| - |l|..] && forall k :: 0 <= k < |s| - |l| ==> IsSpace(s[k])
    requires |l| == 0 || !IsSpace(l[0])
    requires |r| <= |l| && r == l[..|r|] && forall k :: |r| <= k < |l| ==> IsSpace(l[k])
    requires |r| == 0 || !IsSpace(r[|r| - 1])
    ensures Stripped(r) && CutOut(s, r, |s| - |l|)
  {
    var i := |s| - |l|;
    if |r| > 0 {
      assert r[0] == l[0];
    }
    forall k | i + |r| <= k < |s| ensures IsSpace(s[k]) {
      assert s[k] == l[k - i];
    }
  }

  /** Stripping leaves an already stripped string alone. */
  lemma StripStripped(s: string)
    requires Stripped(s)
    ensures Strip(s) == s
  {
  }

  /** Stripping removes the blank that follows each comma in a rendered list. */
  lemma StripAfterBlank(s: string)
    requires Stripped(s)
    ensures Strip(" " + s) == s
  {
    assert (" " + s)[1..] == s;
  }

  // ---------------------------------------------------------------------
  // The user directory
  // ---------------------------------------------------------------------

  /** The user table's unique-username constraint. */
  predicate UniqueNames(us: seq<User>) {
    forall i, j :: 0 <= i < j < |us| ==> us[i].username != us[j].username
  }

  function Usernames(us: seq<User>): (r: seq<string>)
    ensures |r| == |us|
    ensures forall k :: 0 <= k < |us| ==> r[k] == us[k].username
  {
    if |us| == 0 then [] else [us[0].username] + Usernames(us[1..])
  }

  /** `User.objects.filter(username__in=names)`, in directory order. */
  function Lookup(dir: seq<User>, names: set<string>): (r: seq<User>)
    ensures forall u :: u in r <==> u in dir && u.username in names
    ensures UniqueNames(dir) ==> UniqueNames(r)
  {
    if |dir| == 0 then []
    else (if dir[0].username in names then [dir[0]] else []) + Lookup(dir[1..], names)
  }

  /** `User.objects.get(username=name)`: `None` stands for `DoesNotExist`. */
  function FindUser(dir: seq<User>, name: string): (r: Option<User>)
    ensures r.Some? ==> r.value in dir && r.value.username == name
    ensures r.None? ==> forall u :: u in dir ==> u.username != name
  {
    if |dir| == 0 then None
    else if dir[0].username == name then Some(dir[0])
    else FindUser(dir[1..], name)
  }

  /** Under unique usernames, the user found for a name is the only one. */
  lemma {:induction false} FindUserUnique(dir: seq<User>, u: User)
    requires UniqueNames(dir) && u in dir
    ensures FindUser(dir, u.username) == Some(u)
  {
    if dir[0] != u {
      assert u in dir[1..];
      var j :| 0 <= j < |dir| && dir[j] == u;
      assert dir[0].username != u.username;
      FindUserUnique(dir[1..], u);
    }
  }

  // ---------------------------------------------------------------------
  // The widget
  // ---------------------------------------------------------------------

  /** The value handed to a field or its widget: `None`, a string, or a
      list or tuple of users. */
  datatype RawValue = Missing | Text(text: string) | UserList(users: seq<User>)

  /** The values Django treats as empty (`None`, `''`, `[]`, `()`); they
      are also exactly the falsy ones. */
  predicate Blank(v: RawValue) {
    match v
    case Missing => true
    case Text(t) => t == ""
    case UserList(us) => us == []
  }

  /** `CommaSeparatedUserInput.render`, value formatting only: nothing
      renders as the empty string, a string as itself, and a non-empty user
      list as text whose comma-separated pieces are the usernames in order,
      each after the first preceded by one blank. */
  function Render(v: RawValue): (r: string)
    ensures v.Missing? ==> r == ""
    ensures v.Text? ==> r == v.text
    ensures v.UserList? && |v.users| == 0 ==> r == ""
    ensures v.UserList? && |v.users| >= 1 &&
            (forall k :: 0 <= k < |v.users| ==> ',' !in v.users[k].username) ==>
              Split(r, ',') == Spaced(Usernames(v.users))
  {
    match v
    case Missing => ""
    case Text(t) => t
    case UserList(us) =>
      var names := Usernames(us);
      if |us| >= 1 && (forall k :: 0 <= k < |us| ==> ',' !in us[k].username) then
        SplitJoinNames(names);
        JoinNames(names)
      else JoinNames(names)
  }

  /** `", ".join(names)`. */
  function JoinNames(names: seq<string>): string
    decreases |names|
  {
    if |names| == 0 then ""
    else if |names| == 1 then names[0]
    else names[0] + ", " + JoinNames(names[1..])
  }

  /** The pieces between the commas of `", ".join(names)`: the names, each
      after the first with the blank that follows its comma. */
  function Spaced(names: seq<string>): (r: seq<string>)
    ensures |r| == |names|
    ensures |names| > 0 ==> r[0] == names[0]
    ensures forall k :: 1 <= k < |names| ==> r[k] == " " + names[k]
  {
    if |names| == 0 then [] else [names[0]] + seq(|names| - 1, k requires 0 <= k < |names| - 1 => " " + names[k + 1])
  }

  /** Splitting a comma-joined list at its commas, when no name holds a
      comma. */
  lemma {:induction false} SplitJoinNames(names: seq<string>)
    requires |names| >= 1
    requires forall k :: 0 <= k < |names| ==> ',' !in names[k]
    ensures Split(JoinNames(names), ',') == Spaced(names)
    decreases |names|
  {
    if |names| == 1 {
      SplitWithoutSep(names[0], ',');
    } else {
      var rest := names[1..];
      var y := JoinNames(rest);
      SplitJoinNames(rest);
      assert JoinNames(names) == names[0] + [','] + (" " + y);
      SplitAtFirst(names[0], ',', " " + y);
      SplitAfterBlank(y, ',');
    }
  }

  /** A leading blank joins the first piece. */
  lemma SplitAfterBlank(y: string, sep: char)
    requires sep != ' '
    ensures Split(" " + y, sep) == [" " + Split(y, sep)[0]] + Split(y, sep)[1..]
  {
    assert (" " + y)[1..] == y;
  }

  // ---------------------------------------------------------------------
  // CommaSeparatedUserField
  // ---------------------------------------------------------------------

  datatype FieldError =
    | Required                                                      // "This field is required."
    | IncorrectUsernames(unknown: set<string>, invalid: seq<string>)
    | NoSuchUser                                                    // "There is no user with this username."

  /** The set of stripped pieces between the commas: duplicates collapse. */
  function Names(text: string): (r: set<string>)
    ensures forall n :: n in r <==> exists p :: p in Split(text, ',') && n == Strip(p)
    ensures forall n :: n in r ==> Stripped(n) && ',' !in n
  {
    var pieces := Split(text, ',');
    set p | p in pieces :: Strip(p)
  }

  /** The filter refuses a user only by returning the literal `False`. */
  predicate Rejected(filter: RecipientFilter, u: User) {
    filter.Some? && filter.value(u).IsLiteralFalse()
  }

  /** Sorts the found users into those kept and the names of those the
      filter refuses, each in directory order. */
  function Partition(us: seq<User>, filter: RecipientFilter): (r: (seq<User>, seq<string>))
    ensures forall u :: u in r.0 <==> u in us && !Rejected(filter, u)
    ensures forall n :: n in r.1 <==> exists u :: u in us && Rejected(filter, u) && u.username == n
    ensures |r.0| + |r.1| == |us|
  {
    if |us| == 0 then ([], [])
    else
      var rest := Partition(us[1..], filter);
      assert forall u :: u in us <==> u == us[0] || u in us[1..];
      if Rejected(filter, us[0]) then (rest.0, [us[0].username] + rest.1)
      else ([us[0]] + rest.0, rest.1)
  }

  /** Some user in the directory has username `n`. */
  predicate Known(dir: seq<User>, n: string) {
    exists u :: u in dir && u.username == n
  }

  /** `names ^ found`: the names on one side only. */
  function Unknown(names: set<string>, users: seq<User>): set<string> {
    var found := set u | u in users :: u.username;
    (names - found) + (found - names)
  }

  /** Only names without a user are unknown, since every user found was
      looked up by one of the names. */
  lemma UnknownAreUnmatched(dir: seq<User>, names: set<string>)
    ensures forall n :: n in Unknown(names, Lookup(dir, names)) <==> n in names && !Known(dir, n)
  {
    var users := Lookup(dir, names);
    forall n ensures n in Unknown(names, users) <==> n in names && !Known(dir, n) {
      if n in names && Known(dir, n) {
        var u :| u in dir && u.username == n;
        assert u in users;
      }
    }
  }

  /** The part of `CommaSeparatedUserField.clean` after the split: look every
      name up and refuse the set when a name matches no user or the filter
      refuses a found user. */
  function CleanNames(names: set<string>, dir: seq<User>, filter: RecipientFilter)
    : (r: Result<seq<User>, FieldError>)
    requires UniqueNames(dir)
    ensures r.Ok? <==> (forall n :: n in names ==> Known(dir, n)) &&
                       (forall u :: u in dir && u.username in names ==> !Rejected(filter, u))
    ensures r.Ok? ==> forall u :: u in r.value <==> u in dir && u.username in names
    ensures r.Err? ==> r.error.IncorrectUsernames?
    ensures r.Err? ==> forall n :: n in r.error.unknown <==> n in names && !Known(dir, n)
    ensures r.Err? ==> forall u :: u in dir && u.username in names && Rejected(filter, u) ==>
              u.username in r.error.invalid
  {
    var users := Lookup(dir, names);
    var unknown := Unknown(names, users);
    var (kept, invalid) := Partition(users, filter);
    UnknownAreUnmatched(dir, names);
    forall u | u in users && Rejected(filter, u) ensures invalid != [] {
      assert u.username in invalid;
    }
    assert invalid != [] ==> exists u :: u in users && Rejected(filter, u) by {
      if invalid != [] {
        assert invalid[0] in invalid;
      }
    }
    if unknown != {} || invalid != [] then Err(IncorrectUsernames(unknown, invalid))
    else Ok(kept)
  }

  /** `CommaSeparatedUserField.clean`. An empty value is an error when the
      field is required and otherwise cleans to no users; a list of users
      passes through unchanged; a string is split at commas into a set of
      stripped names, which are then checked as in `CleanNames`. */
  function CommaSeparatedClean(value: RawValue, required: bool, dir: seq<User>, filter: RecipientFilter)
    : (r: Result<seq<User>, FieldError>)
    requires UniqueNames(dir)
    ensures r == Err(Required) <==> Blank(value) && required
    ensures Blank(value) && !required ==> r == Ok([])
    ensures value.UserList? && !Blank(value) ==> r == Ok(value.users)
    ensures value.Text? && !Blank(value) ==> r == CleanNames(Names(value.text), dir, filter)
  {
    if Blank(value) then
      if required then Err(Required) else Ok([])
    else if value.UserList? then Ok(value.users)
    else CleanNames(Names(value.text), dir, filter)
  }

  /** The names parsed from rendered users are their usernames, when these
      are stripped and hold no comma. */
  lemma RenderedNames(us: seq<User>)
    requires |us| >= 1
    requires forall k :: 0 <= k < |us| ==> Stripped(us[k].username) && ',' !in us[k].username
    ensures forall n :: n in Names(Render(UserList(us))) <==> n in Usernames(us)
  {
    var names := Usernames(us);
    var pieces := Spaced(names);
    assert Split(Render(UserList(us)), ',') == pieces;
    StripSpaced(names);
    SetOfStripped(pieces, names);
  }

  /** Stripping each spaced piece gives back its name. */
  lemma StripSpaced(names: seq<string>)
    requires forall k :: 0 <= k < |names| ==> Stripped(names[k])
    ensures forall k :: 0 <= k < |names| ==> Strip(Spaced(names)[k]) == names[k]
  {
    forall k | 0 <= k < |names| ensures Strip(Spaced(names)[k]) == names[k] {
      if k > 0 { StripAfterBlank(names[k]); } else { StripStripped(names[0]); }
    }
  }

  lemma SetOfStripped(pieces: seq<string>, names: seq<string>)
    requires |pieces| == |names|
    requires forall k :: 0 <= k < |names| ==> Strip(pieces[k]) == names[k]
    ensures forall n :: n in (set p | p in pieces :: Strip(p)) <==> n in names
  {
    forall n ensures n in (set p | p in pieces :: Strip(p)) <==> n in names {
      if n in names {
        var k :| 0 <= k < |names| && names[k] == n;
        assert pieces[k] in pieces;
      }
    }
  }

  /** Under unique usernames a username names one user. */
  lemma SameNameSameUser(dir: seq<User>)
    requires UniqueNames(dir)
    ensures forall u, v :: u in dir && v in dir && u.username == v.username ==> u == v
  {
    forall u, v | u in dir && v in dir && u.username == v.username ensures u == v {
      var i :| 0 <= i < |dir| && dir[i] == u;
      var j :| 0 <= j < |dir| && dir[j] == v;
    }
  }

  /** Rendering users and cleaning the text again gives back the same users,
      when each is in the directory, accepted, and has a non-empty stripped
      name without a comma. */
  lemma RenderCleanRoundTrip(us: seq<User>, dir: seq<User>, filter: RecipientFilter, required: bool)
    requires UniqueNames(dir) && |us| >= 1
    requires forall k :: 0 <= k < |us| ==>
               us[k] in dir && !Rejected(filter, us[k]) && us[k].username != "" &&
               Stripped(us[k].username) && ',' !in us[k].username
    ensures CommaSeparatedClean(Text(Render(UserList(us))), required, dir, filter).Ok?
    ensures forall u :: u in CommaSeparatedClean(Text(Render(UserList(us))), required, dir, filter).value <==> u in us
  {
    var text := Render(UserList(us));
    var parsed := Names(text);
    RenderedNames(us);
    assert text != "" by {
      assert Split(text, ',')[0] == us[0].username;
    }
    SameNameSameUser(dir);
    ParsedAreListed(us, dir, parsed);
    forall u | u in us ensures !Rejected(filter, u) {
      var k :| 0 <= k < |us| && us[k] == u;
    }
    assert CommaSeparatedClean(Text(text), required, dir, filter) == CleanNames(parsed, dir, filter);
  }

  /** When the names read back are exactly the users' names, every one of
      them is known and the users with those names are exactly `us`. */
  lemma ParsedAreListed(us: seq<User>, dir: seq<User>, parsed: set<string>)
    requires forall k :: 0 <= k < |us| ==> us[k] in dir
    requires forall u, v :: u in dir && v in dir && u.username == v.username ==> u == v
    requires forall n :: n in parsed <==> n in Usernames(us)
    ensures forall n :: n in parsed ==> Known(dir, n)
    ensures forall u :: u in dir && u.username in parsed <==> u in us
  {
    var names := Usernames(us);
    forall u | u in dir && u.username in parsed ensures u in us {
      var k :| 0 <= k < |names| && names[k] == u.username;
    }
    forall n | n in parsed ensures Known(dir, n) {
      var k :| 0 <= k < |names| && names[k] == n;
      assert us[k] in dir;
    }
  }

  /** Python's `list.remove`: drops the first element equal to `x`. */
  function RemoveFirst(xs: seq<User>, x: User): (r: seq<User>)
    ensures x in xs ==> |r| == |xs| - 1
    ensures multiset(r) == multiset(xs) - multiset{x}
    ensures x !in xs ==> r == xs
  {
    if |xs| == 0 then []
    else if xs[0] == x then
      RemoveAtHead(xs, x);
      xs[1..]
    else
      var rest := RemoveFirst(xs[1..], x);
      RemoveBehindHead(xs, x, rest);
      [xs[0]] + rest
  }

  /** `list.remove` cuts out the first occurrence of `x` and nothing else. */
  lemma {:induction false} RemoveFirstCutsFirst(xs: seq<User>, x: User)
    requires x in xs
    ensures exists k :: 0 <= k < |xs| && xs[k] == x && x !in xs[..k] &&
                        RemoveFirst(xs, x) == xs[..k] + xs[k + 1..]
  {
    if xs[0] == x {
      RemoveAtHead(xs, x);
    } else {
      assert x in xs[1..] by {
        assert xs == [xs[0]] + xs[1..];
      }
      RemoveFirstCutsFirst(xs[1..], x);
      RemoveBehindHeadAt(xs, x, RemoveFirst(xs[1..], x));
    }
  }

  /** Removing the head. */
  lemma RemoveAtHead(xs: seq<User>, x: User)
    requires |xs| > 0 && xs[0] == x
    ensures xs[0] == x && x !in xs[..0] && xs[1..] == xs[..0] + xs[1..]
    ensures multiset(xs[1..]) == multiset(xs) - multiset{x}
  {
    assert xs == [xs[0]] + xs[1..];
  }

  /** Removing from the tail when the head is kept: the multiset and the
      untouched case. */
  lemma RemoveBehindHead(xs: seq<User>, x: User, rest: seq<User>)
    requires |xs| > 0 && xs[0] != x
    requires multiset(rest) == multiset(xs[1..]) - multiset{x}
    requires x !in xs[1..] ==> rest == xs[1..]
    ensures multiset([xs[0]] + rest) == multiset(xs) - multiset{x}
    ensures x !in xs ==> [xs[0]] + rest == xs
  {
    assert xs == [xs[0]] + xs[1..];
  }

  /** Removing from the tail when the head is kept: the position removed. */
  lemma RemoveBehindHeadAt(xs: seq<User>, x: User, rest: seq<User>)
    requires |xs| > 0 && xs[0] != x
    requires x in xs[1..] ==> exists k :: 0 <= k < |xs[1..]| && xs[1..][k] == x && x !in xs[1..][..k] &&
                                         rest == xs[1..][..k] + xs[1..][k + 1..]
    ensures x in xs ==> exists j :: 0 <= j < |xs| && xs[j] == x && x !in xs[..j] && [xs[0]] + rest == xs[..j] + xs[j + 1..]
  {
    if x in xs {
      assert x in xs[1..] by {
        assert xs == [xs[0]] + xs[1..];
      }
      var k :| 0 <= k < |xs[1..]| && xs[1..][k] == x && x !in xs[1..][..k] && rest == xs[1..][..k] + xs[1..][k + 1..];
      RemoveShifted(xs, x, rest, k);
    }
  }

  /** The position removed from the tail, shifted by the kept head. */
  lemma RemoveShifted(xs: seq<User>, x: User, rest: seq<User>, k: nat)
    requires |xs| > 0 && xs[0] != x
    requires k < |xs[1..]| && xs[1..][k] == x && x !in xs[1..][..k] && rest == xs[1..][..k] + xs[1..][k + 1..]
    ensures exists j :: 0 <= j < |xs| && xs[j] == x && x !in xs[..j] && [xs[0]] + rest == xs[..j] + xs[j + 1..]
  {
    var j := k + 1;
    assert xs[..j] == [xs[0]] + xs[1..][..k];
    assert xs[j + 1..] == xs[1..][k + 1..];
    assert [xs[0]] + rest == xs[..j] + xs[j + 1..] by {
      assert [xs[0]] + (xs[1..][..k] + xs[1..][k + 1..]) == ([xs[0]] + xs[1..][..k]) + xs[1..][k + 1..];
    }
  }

  /** `n` is the username of a user of `xs` the filter refuses. */
  predicate NameOfRejected(xs: seq<User>, filter: RecipientFilter, n: string) {
    exists u :: u in xs && Rejected(filter, u) && u.username == n
  }

  /** The filtering loop as written: a `for` over the list that removes the
      element just visited from that same list. The loop's hidden position
      `i` then points one past the element that slid into the removed slot,
      so that element is never visited. */
  function FilterAsWritten(xs: seq<User>, i: nat, invalid: seq<string>, filter: RecipientFilter)
    : (r: (seq<User>, seq<string>))
    requires i <= |xs| + 1
    ensures |invalid| <= |r.1| && r.1[..|invalid|] == invalid
    ensures |r.0| <= |xs| && |r.1| - |invalid| == |xs| - |r.0|
    ensures |r.0| == |xs| ==> r.0 == xs
    decreases |xs| + 1 - i
  {
    if i >= |xs| then (xs, invalid)
    else if Rejected(filter, xs[i]) then
      var r := FilterAsWritten(RemoveFirst(xs, xs[i]), i + 1, invalid + [xs[i].username], filter);
      PrefixOfLonger(r.1, invalid, xs[i].username);
      r
    else FilterAsWritten(xs, i + 1, invalid, filter)
  }

  /** A sequence that starts with `p + [n]` starts with `p`. */
  lemma PrefixOfLonger(t: seq<string>, p: seq<string>, n: string)
    requires |p| + 1 <= |t| && t[..|p| + 1] == p + [n]
    ensures |p| <= |t| && t[..|p|] == p
  {
    assert t[..|p|] == t[..|p| + 1][..|p|];
  }

  /** The loop as written keeps users of the list, drops only rejected ones,
      and appends only names of rejected users. */
  lemma {:induction false} FilterAsWrittenDrops(xs: seq<User>, i: nat, invalid: seq<string>, filter: RecipientFilter)
    requires i <= |xs| + 1
    ensures var r := FilterAsWritten(xs, i, invalid, filter);
            && multiset(r.0) <= multiset(xs)
            && (forall u :: u in multiset(xs) - multiset(r.0) ==> Rejected(filter, u))
            && (forall k :: |invalid| <= k < |r.1| ==> NameOfRejected(xs, filter, r.1[k]))
    decreases |xs| + 1 - i, 1
  {
    if i < |xs| {
      if Rejected(filter, xs[i]) {
        DropsAtRejection(xs, i, invalid, filter);
      } else {
        FilterAsWrittenDrops(xs, i + 1, invalid, filter);
      }
    }
  }

  /** The step of `FilterAsWrittenDrops` where the visited user is rejected
      and removed. */
  lemma {:induction false} DropsAtRejection(xs: seq<User>, i: nat, invalid: seq<string>, filter: RecipientFilter)
    requires i < |xs| && Rejected(filter, xs[i])
    ensures var r := FilterAsWritten(xs, i, invalid, filter);
            && multiset(r.0) <= multiset(xs)
            && (forall u :: u in multiset(xs) - multiset(r.0) ==> Rejected(filter, u))
            && (forall k :: |invalid| <= k < |r.1| ==> NameOfRejected(xs, filter, r.1[k]))
    decreases |xs| + 1 - i, 0
  {
    var ys := RemoveFirst(xs, xs[i]);
    var named := invalid + [xs[i].username];
    var r := FilterAsWritten(ys, i + 1, named, filter);
    assert FilterAsWritten(xs, i, invalid, filter) == r;
    FilterAsWrittenDrops(ys, i + 1, named, filter);
    RemovedRejected(xs, ys, xs[i], invalid, r, filter);
  }

  /** One rejection of the loop as written: what the rest of the loop keeps
      and reports, it keeps and reports of the list before the removal. */
  lemma RemovedRejected(xs: seq<User>, ys: seq<User>, x: User, invalid: seq<string>,
                        r: (seq<User>, seq<string>), filter: RecipientFilter)
    requires x in xs && Rejected(filter, x) && multiset(ys) == multiset(xs) - multiset{x}
    requires |ys| == |xs| - 1
    requires |r.0| <= |ys| && |r.1| - (|invalid| + 1) == |ys| - |r.0|
    requires multiset(r.0) <= multiset(ys)
    requires forall u :: u in multiset(ys) - multiset(r.0) ==> Rejected(filter, u)
    requires |invalid| + 1 <= |r.1| && r.1[..|invalid| + 1] == invalid + [x.username]
    requires forall k :: |invalid| + 1 <= k < |r.1| ==> NameOfRejected(ys, filter, r.1[k])
    ensures |invalid| <= |r.1| && r.1[..|invalid|] == invalid
    ensures |r.0| < |xs| && |r.1| - |invalid| == |xs| - |r.0|
    ensures multiset(r.0) <= multiset(xs)
    ensures forall u :: u in multiset(xs) - multiset(r.0) ==> Rejected(filter, u)
    ensures forall k :: |invalid| <= k < |r.1| ==> NameOfRejected(xs, filter, r.1[k])
  {
    assert r.1[..|invalid|] == r.1[..|invalid| + 1][..|invalid|];
    assert multiset(xs) == multiset(ys) + multiset{x};
    forall u | u in multiset(xs) - multiset(r.0) ensures Rejected(filter, u) {
      if u != x {
        assert u in multiset(ys) - multiset(r.0);
      }
    }
    forall k | |invalid| <= k < |r.1| ensures NameOfRejected(xs, filter, r.1[k]) {
      if k == |invalid| {
        assert r.1[k] == (invalid + [x.username])[k];
      } else {
        var u :| u in ys && Rejected(filter, u) && u.username == r.1[k];
        assert u in multiset(ys);
      }
    }
  }

  /** The loop reports some rejection exactly when some unvisited user is
      rejected: the first rejected user is always visited. */
  lemma {:induction false} FilterAsWrittenRejects(xs: seq<User>, i: nat, invalid: seq<string>, filter: RecipientFilter)
    requires i <= |xs|
    ensures FilterAsWritten(xs, i, invalid, filter).1 == invalid <==>
              forall k :: i <= k < |xs| ==> !Rejected(filter, xs[k])
    decreases |xs| - i
  {
    if i < |xs| && !Rejected(filter, xs[i]) {
      FilterAsWrittenRejects(xs, i + 1, invalid, filter);
    }
  }

  /** `CommaSeparatedUserField.clean` with the filtering loop as written. It
      accepts exactly what the corrected field accepts, with the same users;
      only the names listed in an error can differ. */
  function CommaSeparatedCleanAsWritten(value: RawValue, required: bool, dir: seq<User>, filter: RecipientFilter)
    : (r: Result<seq<User>, FieldError>)
    requires UniqueNames(dir)
    ensures r.Ok? <==> CommaSeparatedClean(value, required, dir, filter).Ok?
    ensures r.Ok? ==> r == CommaSeparatedClean(value, required, dir, filter)
    ensures r.Err? && r.error.IncorrectUsernames? ==>
              var c := CommaSeparatedClean(value, required, dir, filter);
              c.Err? && c.error.IncorrectUsernames? && c.error.unknown == r.error.unknown
  {
    if Blank(value) then
      if required then Err(Required) else Ok([])
    else if value.UserList? then Ok(value.users)
    else
      var names := Names(value.text);
      var users := Lookup(dir, names);
      FiltersAgree(users, filter);
      assert CommaSeparatedClean(value, required, dir, filter) == CleanNames(names, dir, filter);
      var unknown := Unknown(names, users);
      var (kept, invalid) := FilterAsWritten(users, 0, [], filter);
      if unknown != {} || invalid != [] then Err(IncorrectUsernames(unknown, invalid))
      else Ok(kept)
  }

  /** The loop as written accepts and refuses the same values, with the same
      users, as the corrected one; only the error text can differ. */
  lemma AsWrittenSameOutcome(value: RawValue, required: bool, dir: seq<User>, filter: RecipientFilter)
    requires UniqueNames(dir)
    ensures CommaSeparatedCleanAsWritten(value, required, dir, filter).Ok? <==>
            CommaSeparatedClean(value, required, dir, filter).Ok?
    ensures CommaSeparatedCleanAsWritten(value, required, dir, filter).Ok? ==>
            CommaSeparatedCleanAsWritten(value, required, dir, filter) == CommaSeparatedClean(value, required, dir, filter)
  {
    if value.Text? && !Blank(value) {
      var names := Names(value.text);
      var users := Lookup(dir, names);
      FiltersAgree(users, filter);
      assert CommaSeparatedClean(value, required, dir, filter) == CleanNames(names, dir, filter);
    }
  }

  /** The loop as written reports a refusal exactly when the corrected
      partition does, and when neither does both keep the whole list. */
  lemma FiltersAgree(users: seq<User>, filter: RecipientFilter)
    ensures (FilterAsWritten(users, 0, [], filter).1 == []) == (Partition(users, filter).1 == [])
    ensures FilterAsWritten(users, 0, [], filter).1 == [] ==>
              FilterAsWritten(users, 0, [], filter).0 == users == Partition(users, filter).0
  {
    FilterAsWrittenRejects(users, 0, [], filter);
    if forall k :: 0 <= k < |users| ==> !Rejected(filter, users[k]) {
      KeptAllWhenNoneRejected(users, filter);
    } else {
      var k :| 0 <= k < |users| && Rejected(filter, users[k]);
      assert users[k].username in Partition(users, filter).1;
    }
  }

  /** When the filter refuses nobody, the corrected partition keeps the list
      as it is. */
  lemma {:induction false} KeptAllWhenNoneRejected(us: seq<User>, filter: RecipientFilter)
    requires forall k :: 0 <= k < |us| ==> !Rejected(filter, us[k])
    ensures Partition(us, filter) == (us, [])
  {
    if |us| > 0 {
      assert forall k :: 0 <= k < |us| - 1 ==> us[1..][k] == us[k + 1];
      KeptAllWhenNoneRejected(us[1..], filter);
      assert [us[0]] + us[1..] == us;
    }
  }

  /** Two users refused in a row: the loop as written reports only the first
      and keeps the second in its result list. */
  lemma AsWrittenSkipsSecondRejection()
    ensures FilterAsWritten([User(1, "ann"), User(2, "bob")], 0, [], Some((u: User) => PyFalse)) ==
              ([User(2, "bob")], ["ann"])
    ensures Partition([User(1, "ann"), User(2, "bob")], Some((u: User) => PyFalse)).1 == ["ann", "bob"]
  {
    var xs := [User(1, "ann"), User(2, "bob")];
    assert RemoveFirst(xs, xs[0]) == [User(2, "bob")];
  }

  // ---------------------------------------------------------------------
  // BaseUserField
  // ---------------------------------------------------------------------

  /** The filter accepts a user when absent or when its result is truthy. */
  predicate Accepted(filter: RecipientFilter, u: User) {
    filter.None? || filter.value(u).Truthy()
  }

  /** `BaseUserField.clean`, on the string the character field produces
      (`None` arrives as the empty string): an empty value is an error when
      required and otherwise no user; an unknown username and a user the
      filter does not accept give the same error. */
  function BaseUserClean(value: string, required: bool, dir: seq<User>, filter: RecipientFilter)
    : (r: Result<Option<User>, FieldError>)
    requires UniqueNames(dir)
    ensures r == Err(Required) <==> value == "" && required
    ensures r == Ok(None) <==> value == "" && !required
    ensures r == Err(NoSuchUser) <==> value != "" && forall u :: u in dir && u.username == value ==> !Accepted(filter, u)
    ensures r.Ok? && r.value.Some? ==>
              r.value.value in dir && r.value.value.username == value && Accepted(filter, r.value.value)
    ensures value != "" && (exists u :: u in dir && u.username == value && Accepted(filter, u)) ==>
              r.Ok? && r.value.Some?
    ensures r.Err? ==> r.error.Required? || r.error.NoSuchUser?
  {
    if value == "" then
      if required then Err(Required) else Ok(None)
    else
      match FindUser(dir, value)
      case None => Err(NoSuchUser)
      case Some(u) =>
        SameNameSameUser(dir);
        if filter.Some? && !filter.value(u).Truthy() then Err(NoSuchUser) else Ok(Some(u))
  }

  /** Every accepted user with a non-empty name is found by that name. */
  lemma BaseUserCleanFinds(u: User, dir: seq<User>, filter: RecipientFilter, required: bool)
    requires UniqueNames(dir) && u in dir && u.username != "" && Accepted(filter, u)
    ensures BaseUserClean(u.username, required, dir, filter) == Ok(Some(u))
  {
    FindUserUnique(dir, u);
  }
}

=== FILE: forms.dfy ===
/** `ComposeForm`: validation of the posted recipient, subject and body,
    and `save`, which stores the message and threads it. */
module Forms {
  import opened Base
  import opened Models
  import opened Fields
  import opened Manager

  /** The posted form fields, as the character fields deliver them. */
  datatype PostData = PostData(recipient: string, subject: string, body: string)

  /** `cleaned_data` of a valid form, together with the form's sender. */
  datatype Cleaned = Cleaned(sender: UserId, recipient: User, subject: string, body: string)

  datatype FormError =
    | RecipientError(error: FieldError)
    | SubjectRequired
    | BodyRequired
    | UnknownSender     // "Unknown user"

  /** `is_valid` of `ComposeForm`: the recipient field is a required
      `BaseUserField`, subject and body are required character fields, and
      `clean` refuses a form built without a sender. All errors are
      collected. */
  function Validate(sender: Option<UserId>, post: PostData, dir: seq<User>, filter: RecipientFilter)
    : (r: Result<Cleaned, seq<FormError>>)
    requires UniqueNames(dir)
    ensures r.Ok? <==>
              && sender.Some? && post.subject != "" && post.body != "" && post.recipient != ""
              && exists u :: u in dir && u.username == post.recipient && Accepted(filter, u)
    ensures r.Ok? ==>
              && r.value.sender == sender.value
              && r.value.recipient in dir && r.value.recipient.username == post.recipient
              && Accepted(filter, r.value.recipient)
              && r.value.subject == post.subject && r.value.body == post.body
    ensures r.Err? ==> ((exists e :: RecipientError(e) in r.error) <==>
              !(post.recipient != "" && exists u :: u in dir && u.username == post.recipient && Accepted(filter, u)))
    ensures r.Err? ==> (UnknownSender in r.error <==> sender.None?)
    ensures r.Err? ==> (SubjectRequired in r.error <==> post.subject == "")
    ensures r.Err? ==> (BodyRequired in r.error <==> post.body == "")
  {
    var recipient := BaseUserClean(post.recipient, true, dir, filter);
    var errors :=
      (if recipient.Err? then [RecipientError(recipient.error)] else []) +
      (if post.subject == "" then [SubjectRequired] else []) +
      (if post.body == "" then [BodyRequired] else []) +
      (if sender.None? then [UnknownSender] else []);
    if errors == [] then Ok(Cleaned(sender.value, recipient.value.value, post.subject, post.body))
    else Err(errors)
  }

  /** The store after `save` and the list of messages it returns. */
  datatype Sent = Sent(store: Store, messages: seq<MsgId>)

  /** `ComposeForm.save`. A reply first stamps the parent's `replied_at` and
      saves the parent, then inherits the parent's thread; the new message
      is inserted, and when it has no thread yet it is saved a second time
      as the root of its own. */
  function SaveForm(s: Store, c: Cleaned, parent: Option<MsgId>, now: Time): (r: Sent)
    requires CounterAhead(s)
    requires parent.Some? ==> parent.value in s.rows
    ensures CounterAhead(r.store)
    ensures |r.messages| == 1
    ensures r.messages[0] !in s.rows && r.messages[0] >= s.nextId
    ensures r.store.rows.Keys == s.rows.Keys + {r.messages[0]}
    ensures var m := r.store.rows[r.messages[0]];
            && m.sender == c.sender && m.recipient == c.recipient.id
            && m.subject == c.subject && m.body == c.body
            && m.sentAt == Some(now) && m.parentMsg == parent
            && m.readAt.None? && m.repliedAt.None?
            && m.senderDeletedAt.None? && m.recipientDeletedAt.None?
    ensures parent.None? ==> r.store.rows[r.messages[0]].conversation == Some(r.messages[0])
    ensures parent.Some? && s.rows[parent.value].conversation.Some? ==>
              r.store.rows[r.messages[0]].conversation == s.rows[parent.value].conversation
    ensures parent.Some? ==> r.store.rows[parent.value] == s.rows[parent.value].(repliedAt := Some(now))
    ensures forall i :: i in s.rows && Some(i) != parent ==> r.store.rows[i] == s.rows[i]
    ensures WellFormed(s) ==> WellFormed(r.store)
  {
    var draft := Draft(c.sender, c.recipient.id, c.subject, c.body);
    var s1 := if parent.Some? then Save(s, parent, s.rows[parent.value].(repliedAt := Some(now)), now).store else s;
    var msg := if parent.Some? then draft.(parentMsg := parent, conversation := s.rows[parent.value].conversation)
               else draft;
    var first := Save(s1, None, msg, now);
    if first.msg.conversation.None? then
      var second := Save(first.store, Some(first.id), first.msg.(conversation := Some(first.id)), now);
      Sent(second.store, [second.id])
    else Sent(first.store, [first.id])
  }

  /** Only the new message is in the thread it starts. */
  lemma NewThreadUnshared(s: Store, c: Cleaned, now: Time)
    requires WellFormed(s)
    ensures var r := SaveForm(s, c, None, now);
            forall i :: i in r.store.rows && i != r.messages[0] ==>
              r.store.rows[i].conversation != Some(r.messages[0])
  {
    var r := SaveForm(s, c, None, now);
    forall i | i in r.store.rows && i != r.messages[0]
      ensures r.store.rows[i].conversation != Some(r.messages[0])
    {
      assert r.store.rows[i] == s.rows[i];
    }
  }

  /** A message sent without a parent starts a thread of its own that
      holds only itself. */
  lemma NewThreadAlone(s: Store, c: Cleaned, now: Time)
    requires WellFormed(s)
    ensures var r := SaveForm(s, c, None, now);
            GetConversation(r.store, r.messages[0]) == [r.messages[0]]
  {
    var r := SaveForm(s, c, None, now);
    var id := r.messages[0];
    NewThreadUnshared(s, c, now);
    var t := GetConversation(r.store, id);
    assert forall i :: i in t <==> i == id;
    OnlyElement(t, id);
  }

  /** A sequence without repetitions whose only element is `x` is `[x]`. */
  lemma OnlyElement(t: seq<MsgId>, x: MsgId)
    requires Ordering.Distinct(t)
    requires forall i :: i in t <==> i == x
    ensures t == [x]
  {
    DistinctCardinality(t);
    assert (set y: MsgId | y in t) == {x};
    assert |t| == 1;
    assert t[0] in t;
  }

  /** A reply joins its parent's thread: the thread gains the reply and
      loses nothing. */
  lemma ReplyJoinsThread(s: Store, c: Cleaned, p: MsgId, now: Time)
    requires WellFormed(s) && p in s.rows
    ensures var r := SaveForm(s, c, Some(p), now);
            var thread := s.rows[p].conversation.value;
            forall i :: i in GetConversation(r.store, thread) <==>
                          i in GetConversation(s, thread) || i == r.messages[0]
  {
    var r := SaveForm(s, c, Some(p), now);
    var thread := s.rows[p].conversation.value;
    ReplyKeepsThreads(s, c, p, now);
    var after := GetConversation(r.store, thread);
    var before := GetConversation(s, thread);
    forall i ensures i in after <==> i in before || i == r.messages[0] {
    }
  }

  /** Saving a reply changes the thread of no stored message, and puts the
      reply in its parent's thread. */
  lemma ReplyKeepsThreads(s: Store, c: Cleaned, p: MsgId, now: Time)
    requires WellFormed(s) && p in s.rows
    ensures var r := SaveForm(s, c, Some(p), now);
            && r.store.rows[r.messages[0]].conversation == s.rows[p].conversation
            && (forall i :: i in r.store.rows <==> i in s.rows || i == r.messages[0])
            && forall i :: i in s.rows ==> r.store.rows[i].conversation == s.rows[i].conversation
  {
    var r := SaveForm(s, c, Some(p), now);
    forall i | i in s.rows ensures r.store.rows[i].conversation == s.rows[i].conversation {
      if i != p {
        assert r.store.rows[i] == s.rows[i];
      }
    }
  }

  /** A new message reaches the recipient's inbox and the sender's outbox. */
  lemma SentReachesMailboxes(s: Store, c: Cleaned, now: Time)
    requires WellFormed(s)
    ensures var r := SaveForm(s, c, None, now);
            r.messages[0] in InboxFor(r.store, c.recipient.id) && r.messages[0] in OutboxFor(r.store, c.sender)
  {
    var r := SaveForm(s, c, None, now);
    NewThreadUnshared(s, c, now);
    AloneIsListed(r.store, Inbox, c.recipient.id, r.messages[0]);
    AloneIsListed(r.store, Outbox, c.sender, r.messages[0]);
  }
}

=== FILE: manager.dfy ===
/** `MessageManager`: the mailbox listings (inbox, outbox, trash), which keep
    one message per conversation, the thread queries, and the unread count.
    Queries return message ids; the rows are read from the store. */
module Manager {
  import opened Base
  import opened Models
  import opened Ordering

  /** Ids increase from left to right, as a scan of the primary key does. */
  predicate Increasing(xs: seq<MsgId>) {
    forall j, k :: 0 <= j < k < |xs| ==> xs[j] < xs[k]
  }

  /** A scan of the ids below `n` that keeps the rows satisfying `p`. */
  function WhereBelow(s: Store, p: MsgId -> bool, n: nat): (r: seq<MsgId>)
    ensures forall i :: i in r <==> i in s.rows && i < n && p(i)
    ensures Increasing(r)
  {
    if n <= 1 then []
    else
      var i: MsgId := n - 1;
      var prev := WhereBelow(s, p, n - 1);
      assert forall k :: 0 <= k < |prev| ==> prev[k] < i by {
        forall k | 0 <= k < |prev| ensures prev[k] < i {
          assert prev[k] in prev;
        }
      }
      prev + (if i in s.rows && p(i) then [i] else [])
  }

  /** `filter(...)`: the ids of all rows satisfying `p`, in id order. */
  function Where(s: Store, p: MsgId -> bool): (r: seq<MsgId>)
    requires CounterAhead(s)
    ensures forall i :: i in r <==> i in s.rows && p(i)
    ensures Increasing(r) && Distinct(r)
  {
    WhereBelow(s, p, s.nextId)
  }

  /** The `sent_at` of a row, as an ordering key. Every row of a well-formed
      store has one; the 0 for a missing stamp is never consulted there. */
  function SentKey(s: Store, i: MsgId): int {
    if i in s.rows && s.rows[i].sentAt.Some? then s.rows[i].sentAt.value else 0
  }

  /** `order_by('sent_at')`. */
  function OldestFirst(s: Store, ids: seq<MsgId>): (r: seq<MsgId>)
    ensures multiset(r) == multiset(ids) && |r| == |ids|
    ensures Distinct(ids) ==> Distinct(r)
    ensures forall j, k :: 0 <= j < k < |r| ==> SentKey(s, r[j]) <= SentKey(s, r[k])
  {
    var key := (i: MsgId) => SentKey(s, i);
    var r := SortBy(ids, key);
    assert forall j, k :: 0 <= j < k < |r| ==> key(r[j]) <= key(r[k]);
    r
  }

  /** `Meta.ordering = ['-sent_at']`. */
  function NewestFirst(s: Store, ids: seq<MsgId>): (r: seq<MsgId>)
    ensures multiset(r) == multiset(ids) && |r| == |ids|
    ensures Distinct(ids) ==> Distinct(r)
    ensures forall j, k :: 0 <= j < k < |r| ==> SentKey(s, r[j]) >= SentKey(s, r[k])
  {
    var key := (i: MsgId) => -SentKey(s, i);
    var r := SortBy(ids, key);
    assert forall j, k :: 0 <= j < k < |r| ==> key(r[j]) <= key(r[k]);
    r
  }

  /** `values('conversation').annotate(Max('id'))` over the rows `ids`: for
      every value of the conversation column that occurs among them, the
      largest id carrying it. As in SQL, all rows without a conversation
      fall into one group. */
  function LatestPerConversation(s: Store, ids: seq<MsgId>): (g: map<Option<MsgId>, MsgId>)
    requires forall k :: 0 <= k < |ids| ==> ids[k] in s.rows
    ensures forall c :: c in g ==> g[c] in ids && s.rows[g[c]].conversation == c
    ensures forall k :: 0 <= k < |ids| ==>
              s.rows[ids[k]].conversation in g && ids[k] <= g[s.rows[ids[k]].conversation]
  {
    if |ids| == 0 then map[]
    else
      var init := ids[..|ids| - 1];
      var i := ids[|ids| - 1];
      var g := LatestPerConversation(s, init);
      var c := s.rows[i].conversation;
      assert forall k :: 0 <= k < |ids| - 1 ==> ids[k] == init[k];
      g[c := if c in g && i < g[c] then g[c] else i]
  }

  /** The three mailboxes of a user. */
  datatype Mailbox = Inbox | Outbox | Trash

  /** The row filter each mailbox applies before grouping. */
  predicate InMailbox(box: Mailbox, u: UserId, m: Message) {
    match box
    case Inbox => m.recipient == u && m.recipientDeletedAt.None?
    case Outbox => m.sender == u && m.senderDeletedAt.None?
    case Trash =>
      || (m.sender == u && m.senderDeletedAt.Some?)
      || (m.recipient == u && m.recipientDeletedAt.Some?)
  }

  /** Row `i` passes the filter of `box` for `u`. */
  predicate Shown(s: Store, box: Mailbox, u: UserId, i: MsgId) {
    i in s.rows && InMailbox(box, u, s.rows[i])
  }

  /** `_conversations.filter(<mailbox>)`: the filter is a plain WHERE, so it
      applies before the grouping, and each conversation is represented by
      its newest message that passes the filter. */
  function Representatives(s: Store, box: Mailbox, u: UserId): (g: map<Option<MsgId>, MsgId>)
    requires CounterAhead(s)
    ensures forall c :: c in g ==> Shown(s, box, u, g[c]) && s.rows[g[c]].conversation == c
    ensures forall i :: Shown(s, box, u, i) ==>
              s.rows[i].conversation in g && i <= g[s.rows[i].conversation]
  {
    var matching := Where(s, (i: MsgId) => Shown(s, box, u, i));
    var g := LatestPerConversation(s, matching);
    forall i | Shown(s, box, u, i)
      ensures s.rows[i].conversation in g && i <= g[s.rows[i].conversation]
    {
      assert i in matching;
      var n :| 0 <= n < |matching| && matching[n] == i;
    }
    forall c | c in g
      ensures Shown(s, box, u, g[c])
    {
      assert g[c] in matching;
    }
    g
  }

  /** A mailbox listing: `filter(id__in=<representatives>)`, newest first. */
  function Listing(s: Store, box: Mailbox, u: UserId): (r: seq<MsgId>)
    requires CounterAhead(s)
    ensures Distinct(r)
    ensures forall i :: i in r <==> i in Representatives(s, box, u).Values
    ensures forall j, k :: 0 <= j < k < |r| ==> SentKey(s, r[j]) >= SentKey(s, r[k])
  {
    var reps := Representatives(s, box, u).Values;
    var found := Where(s, (i: MsgId) => i in reps);
    var r := NewestFirst(s, found);
    forall i ensures i in r <==> i in reps {
      SameElements(r, found, i);
    }
    r
  }

  /** No two positions of `r` hold rows of the same conversation. */
  predicate OnePerConversation(s: Store, r: seq<MsgId>)
    requires forall k :: 0 <= k < |r| ==> r[k] in s.rows
  {
    forall j, k :: 0 <= j < |r| && 0 <= k < |r| && j != k ==>
      s.rows[r[j]].conversation != s.rows[r[k]].conversation
  }

  /** Distinct values of a map keyed by conversation, each a row of the
      conversation it is keyed by, belong to distinct conversations. */
  lemma {:induction false} ValuesOnePerConversation(s: Store, g: map<Option<MsgId>, MsgId>, r: seq<MsgId>)
    requires forall c :: c in g ==> g[c] in s.rows && s.rows[g[c]].conversation == c
    requires Distinct(r)
    requires forall k :: 0 <= k < |r| ==> r[k] in g.Values
    ensures forall k :: 0 <= k < |r| ==> r[k] in s.rows
    ensures OnePerConversation(s, r)
  {
    forall k | 0 <= k < |r|
      ensures r[k] in s.rows
    {
      assert r[k] in g.Values;
      var c :| c in g && g[c] == r[k];
    }
    forall j, k | 0 <= j < |r| && 0 <= k < |r| && j != k
      ensures s.rows[r[j]].conversation != s.rows[r[k]].conversation
    {
      assert r[j] in g.Values && r[k] in g.Values;
      var cj :| cj in g && g[cj] == r[j];
      var ck :| ck in g && g[ck] == r[k];
      assert r[j] != r[k] by {
        if j < k {} else {}
      }
    }
  }

  /** Every listed row passes the mailbox filter, and no two listed rows
      belong to the same conversation. */
  lemma ListedAreShownOnce(s: Store, box: Mailbox, u: UserId)
    requires CounterAhead(s)
    ensures var r := Listing(s, box, u);
      && (forall k :: 0 <= k < |r| ==> Shown(s, box, u, r[k]))
      && OnePerConversation(s, r)
  {
    var r := Listing(s, box, u);
    var g := Representatives(s, box, u);
    forall k | 0 <= k < |r|
      ensures r[k] in g.Values && Shown(s, box, u, r[k])
    {
      assert r[k] in r;
      var c :| c in g && g[c] == r[k];
    }
    ValuesOnePerConversation(s, g, r);
  }

  /** A listed row is the newest passing row of its conversation. */
  lemma ListedAreNewest(s: Store, box: Mailbox, u: UserId)
    requires CounterAhead(s)
    ensures var r := Listing(s, box, u);
      forall k, i :: (0 <= k < |r| && Shown(s, box, u, i) && r[k] in s.rows &&
        s.rows[i].conversation == s.rows[r[k]].conversation) ==> i <= r[k]
  {
    var r := Listing(s, box, u);
    var g := Representatives(s, box, u);
    forall k, i | 0 <= k < |r| && Shown(s, box, u, i) && r[k] in s.rows &&
        s.rows[i].conversation == s.rows[r[k]].conversation
      ensures i <= r[k]
    {
      assert r[k] in r;
      var c :| c in g && g[c] == r[k];
    }
  }

  /** Every conversation holding a passing row is listed. */
  lemma EveryConversationListed(s: Store, box: Mailbox, u: UserId)
    requires CounterAhead(s)
    ensures var r := Listing(s, box, u);
      forall i :: Shown(s, box, u, i) ==>
        exists k :: 0 <= k < |r| && r[k] in s.rows && s.rows[r[k]].conversation == s.rows[i].conversation
  {
    var r := Listing(s, box, u);
    var g := Representatives(s, box, u);
    forall i | Shown(s, box, u, i)
      ensures exists k :: 0 <= k < |r| && r[k] in s.rows && s.rows[r[k]].conversation == s.rows[i].conversation
    {
      var c := s.rows[i].conversation;
      assert g[c] in g.Values;
      assert g[c] in r;
      var k :| 0 <= k < |r| && r[k] == g[c];
    }
  }

  /** A shown message that no other row shares a thread with is listed. */
  lemma AloneIsListed(s: Store, box: Mailbox, u: UserId, id: MsgId)
    requires CounterAhead(s) && Shown(s, box, u, id)
    requires forall i :: i in s.rows && i != id ==> s.rows[i].conversation != s.rows[id].conversation
    ensures id in Listing(s, box, u)
  {
    EveryConversationListed(s, box, u);
    ListedAreShownOnce(s, box, u);
  }

  /** `inbox_for`: one message per conversation the user received in and has
      not deleted, the newest such message of each, newest first. */
  function InboxFor(s: Store, u: UserId): (r: seq<MsgId>)
    requires CounterAhead(s)
    ensures forall k :: 0 <= k < |r| ==> r[k] in s.rows && InMailbox(Inbox, u, s.rows[r[k]])
    ensures OnePerConversation(s, r)
    ensures forall k, i :: (0 <= k < |r| && i in s.rows && InMailbox(Inbox, u, s.rows[i]) &&
              s.rows[i].conversation == s.rows[r[k]].conversation) ==> i <= r[k]
    ensures forall i :: i in s.rows && InMailbox(Inbox, u, s.rows[i]) ==>
              exists k :: 0 <= k < |r| && s.rows[r[k]].conversation == s.rows[i].conversation
    ensures forall j, k :: 0 <= j < k < |r| ==> SentKey(s, r[j]) >= SentKey(s, r[k])
  {
    ListedAreShownOnce(s, Inbox, u);
    ListedAreNewest(s, Inbox, u);
    EveryConversationListed(s, Inbox, u);
    Listing(s, Inbox, u)
  }

  /** `outbox_for`: the same over the messages the user sent and has not
      deleted. */
  function OutboxFor(s: Store, u: UserId): (r: seq<MsgId>)
    requires CounterAhead(s)
    ensures forall k :: 0 <= k < |r| ==> r[k] in s.rows && InMailbox(Outbox, u, s.rows[r[k]])
    ensures OnePerConversation(s, r)
    ensures forall k, i :: (0 <= k < |r| && i in s.rows && InMailbox(Outbox, u, s.rows[i]) &&
              s.rows[i].conversation == s.rows[r[k]].conversation) ==> i <= r[k]
    ensures forall i :: i in s.rows && InMailbox(Outbox, u, s.rows[i]) ==>
              exists k :: 0 <= k < |r| && s.rows[r[k]].conversation == s.rows[i].conversation
    ensures forall j, k :: 0 <= j < k < |r| ==> SentKey(s, r[j]) >= SentKey(s, r[k])
  {
    ListedAreShownOnce(s, Outbox, u);
    ListedAreNewest(s, Outbox, u);
    EveryConversationListed(s, Outbox, u);
    Listing(s, Outbox, u)
  }

  /** `trash_for`: the same over the messages the user deleted on their
      side; the sender and recipient filters are OR-ed before the grouping. */
  function TrashFor(s: Store, u: UserId): (r: seq<MsgId>)
    requires CounterAhead(s)
    ensures forall k :: 0 <= k < |r| ==> r[k] in s.rows && InMailbox(Trash, u, s.rows[r[k]])
    ensures OnePerConversation(s, r)
    ensures forall k, i :: (0 <= k < |r| && i in s.rows && InMailbox(Trash, u, s.rows[i]) &&
              s.rows[i].conversation == s.rows[r[k]].conversation) ==> i <= r[k]
    ensures forall i :: i in s.rows && InMailbox(Trash, u, s.rows[i]) ==>
              exists k :: 0 <= k < |r| && s.rows[r[k]].conversation == s.rows[i].conversation
    ensures forall j, k :: 0 <= j < k < |r| ==> SentKey(s, r[j]) >= SentKey(s, r[k])
  {
    ListedAreShownOnce(s, Trash, u);
    ListedAreNewest(s, Trash, u);
    EveryConversationListed(s, Trash, u);
    Listing(s, Trash, u)
  }

  /** Row `i` belongs to thread `c`. */
  predicate InThread(s: Store, c: MsgId, i: MsgId) {
    i in s.rows && s.rows[i].conversation == Some(c)
  }

  /** Row `i` belongs to one of the threads `cs`. */
  predicate InThreads(s: Store, cs: seq<MsgId>, i: MsgId) {
    i in s.rows && s.rows[i].conversation.Some? && s.rows[i].conversation.value in cs
  }

  /** The filter `conversation=c`. */
  function InConversation(s: Store, c: MsgId): MsgId -> bool {
    (i: MsgId) => InThread(s, c, i)
  }

  /** The filter `conversation__in=cs`. */
  function InConversations(s: Store, cs: seq<MsgId>): MsgId -> bool {
    (i: MsgId) => InThreads(s, cs, i)
  }

  /** `get_conversation`: the whole thread, oldest first. */
  function GetConversation(s: Store, c: MsgId): (r: seq<MsgId>)
    requires CounterAhead(s)
    ensures forall i :: i in r <==> i in s.rows && s.rows[i].conversation == Some(c)
    ensures Distinct(r)
    ensures forall j, k :: 0 <= j < k < |r| ==> SentKey(s, r[j]) <= SentKey(s, r[k])
  {
    var found := Where(s, InConversation(s, c));
    var r := OldestFirst(s, found);
    forall i ensures i in r <==> i in found {
      SameElements(r, found, i);
    }
    r
  }

  /** `get_conversations`: every message of the listed threads, oldest
      first. Ids that name no thread contribute nothing. */
  function GetConversations(s: Store, cs: seq<MsgId>): (r: seq<MsgId>)
    requires CounterAhead(s)
    ensures forall i :: i in r <==>
              i in s.rows && s.rows[i].conversation.Some? && s.rows[i].conversation.value in cs
    ensures Distinct(r)
    ensures forall j, k :: 0 <= j < k < |r| ==> SentKey(s, r[j]) <= SentKey(s, r[k])
  {
    var found := Where(s, InConversations(s, cs));
    var r := OldestFirst(s, found);
    forall i ensures i in r <==> i in found {
      SameElements(r, found, i);
    }
    r
  }

  /** The sizes of the listed threads, added up. */
  function ThreadSizes(s: Store, cs: seq<MsgId>): nat
    requires CounterAhead(s)
  {
    if |cs| == 0 then 0 else |GetConversation(s, cs[0])| + ThreadSizes(s, cs[1..])
  }

  /** Splitting a scan: when `p` holds exactly where one of two exclusive
      filters does, its scan is as long as theirs together. */
  lemma {:induction false} ScanSplits(s: Store, p: MsgId -> bool, q1: MsgId -> bool, q2: MsgId -> bool, n: nat)
    requires forall i :: p(i) <==> q1(i) || q2(i)
    requires forall i :: !(q1(i) && q2(i))
    ensures |WhereBelow(s, p, n)| == |WhereBelow(s, q1, n)| + |WhereBelow(s, q2, n)|
  {
    if n > 1 {
      ScanSplits(s, p, q1, q2, n - 1);
    }
  }

  /** A scan with a filter that never holds is empty. */
  lemma {:induction false} ScanEmpty(s: Store, p: MsgId -> bool, n: nat)
    requires forall i :: !p(i)
    ensures WhereBelow(s, p, n) == []
  {
    if n > 1 {
      ScanEmpty(s, p, n - 1);
    }
  }

  /** Listing distinct threads together returns as many messages as the
      threads hold. */
  lemma {:induction false} ConversationsCount(s: Store, cs: seq<MsgId>)
    requires CounterAhead(s)
    requires Distinct(cs)
    ensures |GetConversations(s, cs)| == ThreadSizes(s, cs)
  {
    if |cs| == 0 {
      ScanEmpty(s, InConversations(s, cs), s.nextId);
    } else {
      var rest := cs[1..];
      assert cs == [cs[0]] + rest;
      ConversationsCount(s, rest);
      SplitFirstThread(s, cs);
      ScanSplits(s, InConversations(s, cs), InConversation(s, cs[0]), InConversations(s, rest), s.nextId);
    }
  }

  /** The rows of threads `cs` are those of its first thread and those of
      the others, and no row is in both when the first id is not repeated. */
  lemma SplitFirstThread(s: Store, cs: seq<MsgId>)
    requires |cs| > 0 && Distinct(cs)
    ensures forall i :: InConversations(s, cs)(i) <==> InConversation(s, cs[0])(i) || InConversations(s, cs[1..])(i)
    ensures forall i :: !(InConversation(s, cs[0])(i) && InConversations(s, cs[1..])(i))
  {
    assert cs == [cs[0]] + cs[1..];
    assert cs[0] !in cs[1..];
  }

  /** The elements of a sequence without repetitions are as many as its
      length. */
  lemma {:induction false} DistinctCardinality(xs: seq<MsgId>)
    requires Distinct(xs)
    ensures |set x: MsgId | x in xs| == |xs|
  {
    if |xs| > 0 {
      var init := xs[..|xs| - 1];
      assert Distinct(init);
      DistinctCardinality(init);
      var last := xs[|xs| - 1];
      assert xs == init + [last];
      var a := set x: MsgId | x in init;
      assert (set x: MsgId | x in xs) == a + {last} by {
        forall x: MsgId ensures x in xs <==> x in init || x == last {
        }
      }
      assert last !in a;
      assert |a + {last}| == |a| + 1;
    }
  }

  /** The messages that `inbox_count_for` counts for `u`. */
  predicate Unread(u: UserId, m: Message) {
    m.recipient == u && m.New() && m.recipientDeletedAt.None?
  }

  /** `inbox_count_for`: how many messages the user received, has not read
      and has not deleted. Reading does not happen here. */
  function InboxCountFor(s: Store, u: UserId): (n: nat)
    requires CounterAhead(s)
    ensures n == |set i: MsgId | i in s.rows && Unread(u, s.rows[i])|
  {
    var found := Where(s, (i: MsgId) => i in s.rows && Unread(u, s.rows[i]));
    DistinctCardinality(found);
    assert (set x: MsgId | x in found) == (set i: MsgId | i in s.rows && Unread(u, s.rows[i]));
    |found|
  }
}

=== FILE: models.dfy ===
/** The message table: one record per private message, the store that maps
    ids to records, and `Message.save`, which stamps `sent_at` on insert. */
module Models {
  import opened Base

  /** A private message from one user to another. `parentMsg` links a reply
      to the message it answers; `conversation` names the first message of
      the thread (a root names itself). */
  datatype Message = Message(
    sender: UserId,
    recipient: UserId,
    subject: string,
    body: string,
    parentMsg: Option<MsgId>,
    conversation: Option<MsgId>,
    sentAt: Option<Time>,
    readAt: Option<Time>,
    repliedAt: Option<Time>,
    senderDeletedAt: Option<Time>,
    recipientDeletedAt: Option<Time>)
  {
    /** Whether the recipient has not read the message yet. */
    predicate New() {
      readAt.None?
    }

    /** Whether the recipient has written a reply to this message. */
    predicate Replied() {
      repliedAt.Some?
    }
  }

  /** A message as constructed in memory before its first save: only the
      parties and the text are set. */
  function Draft(sender: UserId, recipient: UserId, subject: string, body: string): Message {
    Message(sender, recipient, subject, body, None, None, None, None, None, None, None)
  }

  /** The table: rows by primary key, and the auto-increment counter that
      gives the next inserted row its id. */
  datatype Store = Store(rows: map<MsgId, Message>, nextId: MsgId)

  /** The counter is above every id in use, so the next insert gets a fresh id. */
  predicate CounterAhead(s: Store) {
    forall i :: i in s.rows ==> i < s.nextId
  }

  /** The store invariant the model works under: ids come from the counter,
      and every stored row was stamped on insert and belongs to a thread
      whose id the counter has already given out. */
  predicate WellFormed(s: Store) {
    && CounterAhead(s)
    && forall i :: i in s.rows ==>
         s.rows[i].sentAt.Some? && s.rows[i].conversation.Some? && s.rows[i].conversation.value < s.nextId
  }

  /** The empty table. */
  function EmptyStore(): (s: Store)
    ensures WellFormed(s) && |s.rows| == 0
  {
    Store(map[], 1)
  }

  /** The outcome of a save: the new table, the id of the saved row and the
      in-memory message as it stands after the save. */
  datatype Saved = Saved(store: Store, id: MsgId, msg: Message)

  /** `Message.save`: an object without an id gets `sent_at = now` and is
      inserted under a fresh id; an object with an id overwrites (or
      creates) that row with its fields as they are. */
  function Save(s: Store, id: Option<MsgId>, m: Message, now: Time): (r: Saved)
    requires CounterAhead(s)
    ensures CounterAhead(r.store)
    ensures r.store.rows == s.rows[r.id := r.msg]
    ensures id.None? ==> r.id !in s.rows && r.msg == m.(sentAt := Some(now))
    ensures id.Some? ==> r.id == id.value && r.msg == m
  {
    match id
    case None =>
      var stamped := m.(sentAt := Some(now));
      Saved(Store(s.rows[s.nextId := stamped], s.nextId + 1), s.nextId, stamped)
    case Some(i) =>
      Saved(Store(s.rows[i := m], if i < s.nextId then s.nextId else i + 1), i, m)
  }

  /** `sent_at` is stamped exactly once: a later save of the same object,
      at any other time, stores the first stamp unchanged. */
  lemma SaveStampsOnce(s: Store, m: Message, t1: Time, t2: Time)
    requires CounterAhead(s)
    ensures var first := Save(s, None, m, t1);
            var again := Save(first.store, Some(first.id), first.msg, t2);
            && first.msg.sentAt == Some(t1)
            && again.store.rows[again.id].sentAt == Some(t1)
            && again.store == first.store
  {
  }

  /** Saving a message that already has an id does not consult the clock. */
  lemma UpdateIgnoresClock(s: Store, i: MsgId, m: Message, t1: Time, t2: Time)
    requires CounterAhead(s)
    ensures Save(s, Some(i), m, t1) == Save(s, Some(i), m, t2)
    ensures Save(s, Some(i), m, t1).store.rows[i].sentAt == m.sentAt
  {
  }

  /** `new()` and `replied()` read exactly the two nullable timestamps. */
  lemma NewAndRepliedFlags(m: Message, t: Time)
    ensures m.New() <==> m.readAt.None?
    ensures !m.(readAt := Some(t)).New() && m.(readAt := None).New()
    ensures m.Replied() <==> m.repliedAt.Some?
    ensures m.(repliedAt := Some(t)).Replied() && !m.(repliedAt := None).Replied()
  {
  }
}

=== FILE: ordering.dfy ===
/** Ordering of query results: a stable insertion sort by an integer key,
    standing in for the database's ORDER BY. */
module Ordering {

  /** No element occurs twice. */
  predicate Distinct<T(==)>(xs: seq<T>) {
    forall i, j :: 0 <= i < j < |xs| ==> xs[i] != xs[j]
  }

  /** Keys do not decrease from left to right. */
  predicate SortedBy<T>(xs: seq<T>, key: T -> int) {
    forall i, j :: 0 <= i < j < |xs| ==> key(xs[i]) <= key(xs[j])
  }

  /** Places `x` in front of the first element whose key is not smaller. */
  function Insert<T(==)>(x: T, xs: seq<T>, key: T -> int): (r: seq<T>)
    ensures multiset(r) == multiset(xs) + multiset{x}
    ensures |r| == |xs| + 1
  {
    if |xs| == 0 || key(x) <= key(xs[0]) then [x] + xs
    else
      assert xs == [xs[0]] + xs[1..];
      [xs[0]] + Insert(x, xs[1..], key)
  }

  lemma {:induction false} InsertSorted<T>(x: T, xs: seq<T>, key: T -> int)
    requires SortedBy(xs, key)
    ensures SortedBy(Insert(x, xs, key), key)
  {
    if |xs| == 0 || key(x) <= key(xs[0]) {
    } else {
      var rest := Insert(x, xs[1..], key);
      InsertSorted(x, xs[1..], key);
      assert xs == [xs[0]] + xs[1..];
      forall k | 0 <= k < |rest|
        ensures key(xs[0]) <= key(rest[k])
      {
        assert rest[k] in multiset(rest);
        if rest[k] != x {
          assert rest[k] in multiset(xs[1..]);
          var j :| 0 <= j < |xs[1..]| && xs[1..][j] == rest[k];
          assert xs[j + 1] == rest[k];
        }
      }
    }
  }

  lemma {:induction false} InsertDistinct<T>(x: T, xs: seq<T>, key: T -> int)
    ensures Distinct(xs) && x !in xs ==> Distinct(Insert(x, xs, key))
  {
    if !Distinct(xs) || x in xs || |xs| == 0 || key(x) <= key(xs[0]) {
    } else {
      var rest := Insert(x, xs[1..], key);
      assert xs == [xs[0]] + xs[1..];
      InsertDistinct(x, xs[1..], key);
      assert xs[0] !in multiset(rest);
    }
  }

  /** Sorts `xs` by `key`, ascending; elements with equal keys keep their
      relative order. */
  function SortBy<T(==)>(xs: seq<T>, key: T -> int): (r: seq<T>)
    ensures SortedBy(r, key)
    ensures multiset(r) == multiset(xs)
    ensures |r| == |xs|
    ensures Distinct(xs) ==> Distinct(r)
  {
    if |xs| == 0 then []
    else
      assert xs == [xs[0]] + xs[1..];
      var rest := SortBy(xs[1..], key);
      InsertSorted(xs[0], rest, key);
      HeadNotResorted(xs, rest);
      InsertDistinct(xs[0], rest, key);
      Insert(xs[0], rest, key)
  }

  /** The tail of a repetition-free sequence is repetition-free and does
      not hold its head. */
  lemma DistinctTail<T>(xs: seq<T>)
    requires |xs| > 0 && Distinct(xs)
    ensures Distinct(xs[1..]) && xs[0] !in xs[1..]
  {
    forall k | 0 <= k < |xs| - 1 ensures xs[1..][k] != xs[0] {
      assert xs[1..][k] == xs[k + 1];
    }
  }

  /** The head of a repetition-free sequence is not among its sorted tail. */
  lemma HeadNotResorted<T>(xs: seq<T>, rest: seq<T>)
    requires |xs| > 0 && multiset(rest) == multiset(xs[1..])
    ensures Distinct(xs) ==> Distinct(xs[1..]) && xs[0] !in rest
  {
    if Distinct(xs) {
      DistinctTail(xs);
      SameElements(rest, xs[1..], xs[0]);
    }
  }

  /** A permutation has the same elements. */
  lemma SameElements<T>(a: seq<T>, b: seq<T>, y: T)
    requires multiset(a) == multiset(b)
    ensures y in a <==> y in b
  {
    assert y in a <==> y in multiset(a);
    assert y in b <==> y in multiset(b);
  }
}

=== FILE: sweep.dfy ===
/** The `remove_deleted_messages` management command: messages deleted by
    both parties at or before a time limit are selected, and either
    counted (dry run) or deleted. The clock reading and the configured
    maximum age are parameters. */
module Sweep {
  import opened Base
  import opened Models

  /** `now - DELETED_MESSAGE_MAX_AGE`. */
  function Limit(now: Time, maxAge: int): Time {
    now - maxAge
  }

  /** The filter `sender_deleted_at__lte=limit, recipient_deleted_at__lte=limit`;
      a NULL column matches no comparison. */
  predicate Expired(m: Message, limit: Time) {
    && m.senderDeletedAt.Some? && m.senderDeletedAt.value <= limit
    && m.recipientDeletedAt.Some? && m.recipientDeletedAt.value <= limit
  }

  /** The ids the command's query selects. */
  function Selected(s: Store, limit: Time): (r: set<MsgId>)
    ensures forall i :: i in r <==> i in s.rows && Expired(s.rows[i], limit)
  {
    set i: MsgId | i in s.rows && Expired(s.rows[i], limit)
  }

  /** The table without the rows in `x`. */
  function Without(s: Store, x: set<MsgId>): (r: Store)
    ensures r.nextId == s.nextId
    ensures forall i :: i in r.rows <==> i in s.rows && i !in x
    ensures forall i :: i in r.rows ==> r.rows[i] == s.rows[i]
  {
    Store(map i | i in s.rows && i !in x :: s.rows[i], s.nextId)
  }

  /** What the command leaves behind: the table, and the count it prints in
      a dry run. */
  datatype Outcome = Outcome(store: Store, printed: Option<nat>)

  /** `handle`, deleting only the selected messages: a dry run reports their
      number and changes nothing; otherwise exactly they are removed. */
  function Handle(s: Store, now: Time, maxAge: int, dryrun: bool): (r: Outcome)
    ensures dryrun ==> r.store == s && r.printed == Some(|Selected(s, Limit(now, maxAge))|)
    ensures !dryrun ==> r.printed.None?
    ensures !dryrun ==> forall i :: i in r.store.rows <==>
                          i in s.rows && !Expired(s.rows[i], Limit(now, maxAge))
    ensures forall i :: i in r.store.rows ==> r.store.rows[i] == s.rows[i]
    ensures r.store.nextId == s.nextId
  {
    var query := Selected(s, Limit(now, maxAge));
    if dryrun then Outcome(s, Some(|query|))
    else Outcome(Without(s, query), None)
  }

  /** Sweeping keeps the store invariant. */
  lemma HandleKeepsWellFormed(s: Store, now: Time, maxAge: int, dryrun: bool)
    requires WellFormed(s)
    ensures WellFormed(Handle(s, now, maxAge, dryrun).store)
  {
  }

  /** A second sweep at the same limit removes nothing more. */
  lemma HandleIdempotent(s: Store, now: Time, maxAge: int)
    ensures var once := Handle(s, now, maxAge, false).store;
            Handle(once, now, maxAge, false).store == once
  {
    var once := Handle(s, now, maxAge, false).store;
    var twice := Handle(once, now, maxAge, false).store;
    assert twice.rows == once.rows;
  }

  /** A message only its sender deleted survives the sweep. */
  lemma OnlySenderDeletedSurvives(s: Store, i: MsgId, now: Time, maxAge: int)
    requires i in s.rows && s.rows[i].recipientDeletedAt.None?
    ensures i in Handle(s, now, maxAge, false).store.rows
  {
  }

  /** A message only its recipient deleted survives the sweep. */
  lemma OnlyRecipientDeletedSurvives(s: Store, i: MsgId, now: Time, maxAge: int)
    requires i in s.rows && s.rows[i].senderDeletedAt.None?
    ensures i in Handle(s, now, maxAge, false).store.rows
  {
  }

  /** A message survives when either deletion is later than the limit. */
  lemma RecentDeletionSurvives(s: Store, i: MsgId, now: Time, maxAge: int)
    requires i in s.rows
    requires var m := s.rows[i];
             (m.senderDeletedAt.Some? && m.senderDeletedAt.value > now - maxAge) ||
             (m.recipientDeletedAt.Some? && m.recipientDeletedAt.value > now - maxAge)
    ensures i in Handle(s, now, maxAge, false).store.rows
  {
  }

  /** A message both parties deleted at or before the limit is removed. */
  lemma ExpiredRemoved(s: Store, i: MsgId, now: Time, maxAge: int)
    requires i in s.rows
    requires var m := s.rows[i];
             m.senderDeletedAt.Some? && m.senderDeletedAt.value <= now - maxAge &&
             m.recipientDeletedAt.Some? && m.recipientDeletedAt.value <= now - maxAge
    ensures i !in Handle(s, now, maxAge, false).store.rows
  {
  }

  // ---------------------------------------------------------------------
  // query.delete() as the ORM performs it
  // ---------------------------------------------------------------------

  /** `m` points at a row of `x` through one of the two self references. */
  predicate RefersTo(m: Message, x: set<MsgId>) {
    (m.parentMsg.Some? && m.parentMsg.value in x) || (m.conversation.Some? && m.conversation.value in x)
  }

  /** No row outside `x` points into `x`. */
  predicate ClosedUnderRefs(s: Store, x: set<MsgId>) {
    forall i :: i in s.rows && RefersTo(s.rows[i], x) ==> i in x
  }

  /** A proper subset is smaller. */
  lemma ProperSubsetSmaller<T>(a: set<T>, b: set<T>)
    requires a < b
    ensures |a| < |b|
  {
    var d := b - a;
    assert b == a + d;
    var y :| y in d;
    assert |d| >= 1;
  }

  /** The rows that the ORM's delete collector gathers from `x`: with both
      self references cascading on delete, a row whose parent or thread is
      gathered is gathered too, until nothing more is added. The result is
      the least set that contains `x` and is closed under the references. */
  function Cascade(s: Store, x: set<MsgId>): (r: set<MsgId>)
    requires x <= s.rows.Keys
    ensures x <= r <= s.rows.Keys
    ensures ClosedUnderRefs(s, r)
    ensures forall y :: x <= y && ClosedUnderRefs(s, y) ==> r <= y
    decreases |s.rows.Keys - x|
  {
    var next := x + set i: MsgId | i in s.rows && RefersTo(s.rows[i], x);
    if next == x then x
    else
      ProperSubsetSmaller(s.rows.Keys - next, s.rows.Keys - x);
      var r := Cascade(s, next);
      assert forall y :: x <= y && ClosedUnderRefs(s, y) ==> next <= y by {
        forall y | x <= y && ClosedUnderRefs(s, y) ensures next <= y {
          forall i | i in next ensures i in y {
            if i !in x {
              assert RefersTo(s.rows[i], y);
            }
          }
        }
      }
      r
  }

  /** `handle` as written: the queryset `delete()` removes the selected rows
      and everything the collector gathers from them. */
  function HandleAsWritten(s: Store, now: Time, maxAge: int, dryrun: bool): (r: Outcome)
    ensures dryrun ==> r == Handle(s, now, maxAge, dryrun)
    ensures !dryrun ==> r.printed.None?
  {
    var query := Selected(s, Limit(now, maxAge));
    if dryrun then Outcome(s, Some(|query|))
    else Outcome(Without(s, Cascade(s, query)), None)
  }

  /** As written, the sweep removes every message of a thread whose root
      expired, whether or not its own parties deleted it. */
  lemma AsWrittenRemovesThread(s: Store, root: MsgId, i: MsgId, now: Time, maxAge: int)
    requires root in s.rows && Expired(s.rows[root], Limit(now, maxAge))
    requires i in s.rows && s.rows[i].conversation == Some(root)
    ensures i !in HandleAsWritten(s, now, maxAge, false).store.rows
  {
    var query := Selected(s, Limit(now, maxAge));
    assert root in Cascade(s, query);
    assert RefersTo(s.rows[i], Cascade(s, query));
  }

  /** A thread whose root both parties deleted long ago, answered by a reply
      nobody deleted: the command as written removes the reply as well,
      while the selection leaves it. */
  lemma AsWrittenRemovesLiveReply()
    ensures var root := Message(1, 2, "hi", "hello", None, Some(1), Some(0), Some(0), Some(0), Some(0), Some(0));
            var reply := Message(2, 1, "Re: hi", "hey", Some(1), Some(1), Some(1), None, None, None, None);
            var s := Store(map[1 := root, 2 := reply], 3);
            && WellFormed(s)
            && 2 !in HandleAsWritten(s, 10, 10, false).store.rows
            && 2 in Handle(s, 10, 10, false).store.rows
  {
    var root := Message(1, 2, "hi", "hello", None, Some(1), Some(0), Some(0), Some(0), Some(0), Some(0));
    var reply := Message(2, 1, "Re: hi", "hey", Some(1), Some(1), Some(1), None, None, None, None);
    var s := Store(map[1 := root, 2 := reply], 3);
    AsWrittenRemovesThread(s, 1, 2, 10, 10);
  }

  /** The cascade only adds: the as-written command removes at least the
      selected rows, and exactly them when no surviving row refers to one. */
  lemma AsWrittenRemovesSelection(s: Store, now: Time, maxAge: int)
    ensures var query := Selected(s, Limit(now, maxAge));
            && (forall i :: i in HandleAsWritten(s, now, maxAge, false).store.rows ==>
                  i in Handle(s, now, maxAge, false).store.rows)
            && (ClosedUnderRefs(s, query) ==>
                  HandleAsWritten(s, now, maxAge, false) == Handle(s, now, maxAge, false))
  {
    var query := Selected(s, Limit(now, maxAge));
    if ClosedUnderRefs(s, query) {
      assert Cascade(s, query) == query;
      assert Without(s, query).rows == Handle(s, now, maxAge, false).store.rows;
    }
  }
}

=== FILE: views.dfy ===
/** The state-changing logic of the views: deleting and undeleting whole
    threads, the participant check and reply data shared by `reply` and
    `view`, sending a reply, and marking a thread read when it is viewed.
    A view either answers 404 or renders a page after changing the store. */
module Views {
  import opened Base
  import opened Models
  import opened Manager
  import opened Fields
  import opened Forms

  /** The outcome of a view: `Http404`, or the store after the view and
      what the page shows. */
  datatype Response<T> = Http404 | Page(store: Store, shows: T)

  /** Rewrites the rows `p` selects with `f`, as one `update()` does. */
  function Update(s: Store, p: MsgId -> bool, f: Message -> Message): (r: Store)
    ensures r.nextId == s.nextId && r.rows.Keys == s.rows.Keys
    ensures forall i :: i in s.rows && !p(i) ==> r.rows[i] == s.rows[i]
    ensures forall i :: i in s.rows && p(i) ==> r.rows[i] == f(s.rows[i])
  {
    Store(map i | i in s.rows :: if p(i) then f(s.rows[i]) else s.rows[i], s.nextId)
  }

  /** Whether some listed message satisfies `p`: the truth value of the
      row count an `update()` returns. */
  function AnyWhere(qs: seq<MsgId>, p: MsgId -> bool): (b: bool)
    ensures b <==> exists k :: 0 <= k < |qs| && p(qs[k])
  {
    if |qs| == 0 then false
    else p(qs[0]) || (assert forall k :: 1 <= k < |qs| ==> qs[k] == qs[1..][k - 1]; AnyWhere(qs[1..], p))
  }

  /** `u` takes part in message `m`. */
  predicate Party(m: Message, u: UserId) {
    m.sender == u || m.recipient == u
  }

  // ---------------------------------------------------------------------
  // delete / undelete
  // ---------------------------------------------------------------------

  /** `u`'s own deletion columns of `m` set to `mark`: the recipient column
      when `u` received `m`, the sender column when `u` sent it. The view
      issues one update per column; as they write different columns and
      select on columns neither writes, they act as this one rewrite. */
  function Mark(m: Message, u: UserId, mark: Option<Time>): (r: Message)
    ensures r.recipientDeletedAt == (if m.recipient == u then mark else m.recipientDeletedAt)
    ensures r.senderDeletedAt == (if m.sender == u then mark else m.senderDeletedAt)
    ensures r.(recipientDeletedAt := m.recipientDeletedAt, senderDeletedAt := m.senderDeletedAt) == m
  {
    var m1 := if m.recipient == u then m.(recipientDeletedAt := mark) else m;
    if m1.sender == u then m1.(senderDeletedAt := mark) else m1
  }

  /** The store after both updates: `u`'s side of every row of the listed
      threads set to `mark`. */
  function MarkThreads(s: Store, ids: seq<MsgId>, u: UserId, mark: Option<Time>): (r: Store)
    requires CounterAhead(s)
    ensures CounterAhead(r) && r.rows.Keys == s.rows.Keys
    ensures forall i :: i in s.rows && !InThreads(s, ids, i) ==> r.rows[i] == s.rows[i]
    ensures forall i :: InThreads(s, ids, i) ==> r.rows[i] == Mark(s.rows[i], u, mark)
  {
    Update(s, InConversations(s, ids), (m: Message) => Mark(m, u, mark))
  }

  /** `result1 or result2`: whether either update matched a row. */
  function Matched(s: Store, ids: seq<MsgId>, u: UserId): (b: bool)
    requires CounterAhead(s)
    ensures b <==> exists i :: InThreads(s, ids, i) && Party(s.rows[i], u)
  {
    var qs := GetConversations(s, ids);
    var result1 := AnyWhere(qs, (i: MsgId) => i in s.rows && s.rows[i].recipient == u);
    var result2 := AnyWhere(qs, (i: MsgId) => i in s.rows && s.rows[i].sender == u);
    SomeRowMatched(s, ids, u, qs);
    result1 || result2
  }

  /** For the rows `qs` of the listed threads, one of the two updates
      matches a row exactly when some row of the threads is `u`'s. */
  lemma SomeRowMatched(s: Store, ids: seq<MsgId>, u: UserId, qs: seq<MsgId>)
    requires forall i :: i in qs <==> InThreads(s, ids, i)
    ensures AnyWhere(qs, (i: MsgId) => i in s.rows && s.rows[i].recipient == u) ||
            AnyWhere(qs, (i: MsgId) => i in s.rows && s.rows[i].sender == u)
            <==> exists i :: InThreads(s, ids, i) && Party(s.rows[i], u)
  {
    if exists i :: InThreads(s, ids, i) && Party(s.rows[i], u) {
      var i :| InThreads(s, ids, i) && Party(s.rows[i], u);
      assert i in qs;
      var k :| 0 <= k < |qs| && qs[k] == i;
    }
  }

  /** `delete`: only a POST naming thread ids acts. The listed threads must
      hold some message; `u`'s own deletion column is stamped with `now` in
      each of their rows; the answer is 404 unless some row was `u`'s. */
  function Delete(s: Store, u: UserId, isPost: bool, ids: Option<seq<MsgId>>, now: Time): (r: Response<()>)
    requires CounterAhead(s)
    ensures r.Page? <==> isPost && ids.Some? && exists i :: InThreads(s, ids.value, i) && Party(s.rows[i], u)
    ensures r.Page? ==> r.store == MarkThreads(s, ids.value, u, Some(now))
  {
    if !isPost || ids.None? then Http404
    else if |GetConversations(s, ids.value)| == 0 then Http404
    else if Matched(s, ids.value, u) then Page(MarkThreads(s, ids.value, u, Some(now)), ())
    else Http404
  }

  /** `undelete`: the same, clearing the column instead of stamping it. */
  function Undelete(s: Store, u: UserId, isPost: bool, ids: Option<seq<MsgId>>): (r: Response<()>)
    requires CounterAhead(s)
    ensures r.Page? <==> isPost && ids.Some? && exists i :: InThreads(s, ids.value, i) && Party(s.rows[i], u)
    ensures r.Page? ==> r.store == MarkThreads(s, ids.value, u, None)
  {
    if !isPost || ids.None? then Http404
    else if Matched(s, ids.value, u) then Page(MarkThreads(s, ids.value, u, None), ())
    else Http404
  }

  /** Marking changes neither the thread nor the parties of a row. */
  lemma MarkKeepsThreads(s: Store, ids: seq<MsgId>, u: UserId, mark: Option<Time>)
    requires CounterAhead(s)
    ensures var after := MarkThreads(s, ids, u, mark);
            forall i :: i in s.rows ==>
              && after.rows[i].conversation == s.rows[i].conversation
              && after.rows[i].sentAt == s.rows[i].sentAt
              && after.rows[i].sender == s.rows[i].sender
              && after.rows[i].recipient == s.rows[i].recipient
  {
    var after := MarkThreads(s, ids, u, mark);
    forall i | i in s.rows
      ensures after.rows[i].(recipientDeletedAt := s.rows[i].recipientDeletedAt,
                             senderDeletedAt := s.rows[i].senderDeletedAt) == s.rows[i]
    {
    }
  }

  /** Deleting keeps the store invariant. */
  lemma DeleteKeepsWellFormed(s: Store, u: UserId, ids: seq<MsgId>, now: Time)
    requires WellFormed(s)
    ensures WellFormed(MarkThreads(s, ids, u, Some(now)))
  {
    MarkKeepsThreads(s, ids, u, Some(now));
  }

  /** Clearing a column just stamped restores it when it was clear. */
  lemma MarkUndone(m: Message, u: UserId, now: Time)
    requires m.recipient == u ==> m.recipientDeletedAt.None?
    requires m.sender == u ==> m.senderDeletedAt.None?
    ensures Mark(Mark(m, u, Some(now)), u, None) == m
  {
  }

  /** Clearing what was just stamped restores the rows, when `u`'s own
      columns were clear in the listed threads. */
  lemma MarkThenClear(s: Store, u: UserId, ids: seq<MsgId>, now: Time)
    requires CounterAhead(s)
    requires forall i :: InThreads(s, ids, i) ==>
               (s.rows[i].recipient == u ==> s.rows[i].recipientDeletedAt.None?) &&
               (s.rows[i].sender == u ==> s.rows[i].senderDeletedAt.None?)
    ensures var deleted := MarkThreads(s, ids, u, Some(now));
            MarkThreads(deleted, ids, u, None) == s
  {
    var deleted := MarkThreads(s, ids, u, Some(now));
    MarkKeepsThreads(s, ids, u, Some(now));
    var restored := MarkThreads(deleted, ids, u, None);
    forall i | i in s.rows ensures restored.rows[i] == s.rows[i] {
      if InThreads(s, ids, i) {
        assert InThreads(deleted, ids, i);
        MarkUndone(s.rows[i], u, now);
      } else {
        assert !InThreads(deleted, ids, i);
      }
    }
    assert restored.rows == s.rows;
  }

  /** Undelete undoes delete: when `u`'s own columns were clear in the
      listed threads, deleting and then undeleting the same threads gives
      back the store. */
  lemma UndeleteAfterDelete(s: Store, u: UserId, ids: seq<MsgId>, now: Time)
    requires CounterAhead(s)
    requires forall i :: InThreads(s, ids, i) ==>
               (s.rows[i].recipient == u ==> s.rows[i].recipientDeletedAt.None?) &&
               (s.rows[i].sender == u ==> s.rows[i].senderDeletedAt.None?)
    requires exists i :: InThreads(s, ids, i) && Party(s.rows[i], u)
    ensures Delete(s, u, true, Some(ids), now).Page?
    ensures var deleted := Delete(s, u, true, Some(ids), now).store;
            Undelete(deleted, u, true, Some(ids)) == Page(s, ())
  {
    var deleted := MarkThreads(s, ids, u, Some(now));
    MarkKeepsThreads(s, ids, u, Some(now));
    var i :| InThreads(s, ids, i) && Party(s.rows[i], u);
    assert InThreads(deleted, ids, i) && Party(deleted.rows[i], u);
    MarkThenClear(s, u, ids, now);
  }

  /** After `u` deletes threads, every row of them that is `u`'s is in `u`'s
      trash and in neither `u`'s inbox nor `u`'s outbox. */
  lemma DeletedRowsMove(s: Store, u: UserId, ids: seq<MsgId>, now: Time)
    requires CounterAhead(s)
    ensures var after := MarkThreads(s, ids, u, Some(now));
            forall i :: InThreads(after, ids, i) ==>
              && !InMailbox(Inbox, u, after.rows[i]) && !InMailbox(Outbox, u, after.rows[i])
              && (Party(after.rows[i], u) ==> InMailbox(Trash, u, after.rows[i]))
  {
    var after := MarkThreads(s, ids, u, Some(now));
    MarkKeepsThreads(s, ids, u, Some(now));
    forall i | InThreads(after, ids, i)
      ensures && !InMailbox(Inbox, u, after.rows[i]) && !InMailbox(Outbox, u, after.rows[i])
              && (Party(after.rows[i], u) ==> InMailbox(Trash, u, after.rows[i]))
    {
      assert InThreads(s, ids, i);
    }
  }

  /** After a delete, no message of the listed threads is in `u`'s inbox
      or outbox, and each of those threads `u` took part in shows in `u`'s
      trash. */
  lemma DeleteMovesToTrash(s: Store, u: UserId, ids: seq<MsgId>, now: Time)
    requires CounterAhead(s)
    ensures var after := MarkThreads(s, ids, u, Some(now));
            var trash := TrashFor(after, u);
            && (forall k :: 0 <= k < |InboxFor(after, u)| ==> !InThreads(after, ids, InboxFor(after, u)[k]))
            && (forall k :: 0 <= k < |OutboxFor(after, u)| ==> !InThreads(after, ids, OutboxFor(after, u)[k]))
            && (forall i :: InThreads(after, ids, i) && Party(after.rows[i], u) ==>
                  exists k :: 0 <= k < |trash| && after.rows[trash[k]].conversation == after.rows[i].conversation)
  {
    var after := MarkThreads(s, ids, u, Some(now));
    DeletedRowsMove(s, u, ids, now);
    var inbox := InboxFor(after, u);
    forall k | 0 <= k < |inbox| ensures !InThreads(after, ids, inbox[k]) {
      assert InMailbox(Inbox, u, after.rows[inbox[k]]);
    }
    var outbox := OutboxFor(after, u);
    forall k | 0 <= k < |outbox| ensures !InThreads(after, ids, outbox[k]) {
      assert InMailbox(Outbox, u, after.rows[outbox[k]]);
    }
    var trash := TrashFor(after, u);
    forall i | InThreads(after, ids, i) && Party(after.rows[i], u)
      ensures exists k :: 0 <= k < |trash| && after.rows[trash[k]].conversation == after.rows[i].conversation
    {
      assert InMailbox(Trash, u, after.rows[i]);
    }
  }

  // ---------------------------------------------------------------------
  // The participant check and the reply data
  // ---------------------------------------------------------------------

  /** Following a user foreign key. */
  function UserById(dir: seq<User>, id: UserId): (r: Option<User>)
    ensures r.Some? ==> r.value in dir && r.value.id == id
    ensures r.None? ==> forall u :: u in dir ==> u.id != id
  {
    if |dir| == 0 then None
    else if dir[0].id == id then Some(dir[0])
    else UserById(dir[1..], id)
  }

  /** Both parties of every stored message are users of the directory. */
  predicate PartiesKnown(s: Store, dir: seq<User>) {
    forall i :: i in s.rows ==> UserById(dir, s.rows[i].sender).Some? && UserById(dir, s.rows[i].recipient).Some?
  }

  /** The initial reply data: the recipient, the subject and the quoted body. */
  datatype FormData = FormData(recipient: User, subject: string, body: string)

  /** The party of `m` that is not `u`; `u` itself when `u` wrote to `u`. */
  function OtherParty(m: Message, u: UserId): UserId {
    if m.sender == u then m.recipient else m.sender
  }

  /** `_get_form_data_and_check_parent`: 404 unless `u` sent or received
      `parent`; otherwise the reply goes to the other party, under the
      parent's subject prefixed with "Re: ", quoting the parent's body. */
  function CheckParent(parent: Message, u: UserId, dir: seq<User>, quote: (User, string) -> string)
    : (r: Option<FormData>)
    requires UserById(dir, parent.sender).Some? && UserById(dir, parent.recipient).Some?
    ensures r.None? <==> !Party(parent, u)
    ensures r.Some? ==> r.value.recipient in dir && r.value.recipient.id == OtherParty(parent, u)
    ensures r.Some? && parent.sender == u ==> r.value.recipient.id == parent.recipient
    ensures r.Some? && parent.sender != u ==> r.value.recipient.id == parent.sender
    ensures r.Some? ==> r.value.subject == "Re: " + parent.subject
    ensures r.Some? ==> r.value.body == quote(UserById(dir, parent.sender).value, parent.body)
  {
    if parent.sender != u && parent.recipient != u then None
    else
      var recipient := if parent.sender == u then parent.recipient else parent.sender;
      Some(FormData(UserById(dir, recipient).value, "Re: " + parent.subject,
                    quote(UserById(dir, parent.sender).value, parent.body)))
  }

  // ---------------------------------------------------------------------
  // reply
  // ---------------------------------------------------------------------

  /** What the reply view shows: the prefilled form, the form with its
      errors, or the id of the reply it stored. */
  datatype ReplyPage = ReplyForm(data: FormData) | ReplyErrors(errors: seq<FormError>) | ReplySent(id: MsgId)

  /** `reply`: 404 for a missing parent or a user who is not one of its
      parties. A GET shows the prefilled form. A POST takes the body from
      the posted data but forces recipient and subject to those of the
      prefilled form, validates it as the sending user, and on success
      saves it as a reply to the parent. */
  function Reply(s: Store, dir: seq<User>, u: User, parentId: MsgId, isPost: bool, post: PostData,
                 filter: RecipientFilter, quote: (User, string) -> string, now: Time)
    : (r: Response<ReplyPage>)
    requires CounterAhead(s) && UniqueNames(dir) && PartiesKnown(s, dir)
    ensures r.Http404? <==> parentId !in s.rows || !Party(s.rows[parentId], u.id)
    ensures r.Page? && !r.shows.ReplySent? ==> r.store == s
    ensures r.Page? && r.shows.ReplySent? ==> r.shows.id in r.store.rows && parentId in r.store.rows
    ensures r.Page? && !isPost ==> r.shows.ReplyForm?
    ensures r.Page? ==> (r.shows.ReplySent? <==>
              isPost && post.body != "" &&
              var other := UserById(dir, OtherParty(s.rows[parentId], u.id)).value;
              other.username != "" && Accepted(filter, other))
    ensures r.Page? && r.shows.ReplySent? ==>
              var m := r.store.rows[r.shows.id];
              var parent := s.rows[parentId];
              && r.shows.id !in s.rows
              && m.sender == u.id && m.recipient == OtherParty(parent, u.id)
              && m.subject == "Re: " + parent.subject && m.body == post.body
              && m.parentMsg == Some(parentId)
              && r.store.rows[parentId] == parent.(repliedAt := Some(now))
    ensures r.Page? && r.shows.ReplySent? ==>
              && r.store.rows.Keys == s.rows.Keys + {r.shows.id}
              && forall i :: i in s.rows && i != parentId ==> r.store.rows[i] == s.rows[i]
  {
    if parentId !in s.rows then Http404
    else
      match CheckParent(s.rows[parentId], u.id, dir, quote)
      case None => Http404
      case Some(data) =>
        if !isPost then Page(s, ReplyForm(data))
        else
          var forced := post.(recipient := data.recipient.username, subject := data.subject);
          SameNameSameUser(dir);
          match Validate(Some(u.id), forced, dir, filter)
          case Err(errors) => Page(s, ReplyErrors(errors))
          case Ok(cleaned) =>
            var sent := SaveForm(s, cleaned, Some(parentId), now);
            Page(sent.store, ReplySent(sent.messages[0]))
  }

  /** A reply keeps the store invariant and joins the parent's thread. */
  lemma ReplyThreads(s: Store, dir: seq<User>, u: User, parentId: MsgId, post: PostData,
                     filter: RecipientFilter, quote: (User, string) -> string, now: Time)
    requires WellFormed(s) && UniqueNames(dir) && PartiesKnown(s, dir)
    ensures var r := Reply(s, dir, u, parentId, true, post, filter, quote, now);
            r.Page? && r.shows.ReplySent? ==>
              && WellFormed(r.store)
              && r.store.rows[r.shows.id].conversation == s.rows[parentId].conversation
  {
  }

  // ---------------------------------------------------------------------
  // view
  // ---------------------------------------------------------------------

  /** Row `i` of thread `c` is one `u` received and has not read. */
  predicate UnreadIn(s: Store, c: MsgId, u: UserId, i: MsgId) {
    InThread(s, c, i) && s.rows[i].recipient == u && s.rows[i].readAt.None?
  }

  /** The update of `view`: `read_at = now` on the messages of thread `c`
      that `u` received and had not read; nothing else changes. */
  function MarkRead(s: Store, c: MsgId, u: UserId, now: Time): (r: Store)
    ensures r.rows.Keys == s.rows.Keys && r.nextId == s.nextId
    ensures forall i :: i in s.rows ==>
              && r.rows[i].readAt == (if UnreadIn(s, c, u, i) then Some(now) else s.rows[i].readAt)
              && r.rows[i].(readAt := s.rows[i].readAt) == s.rows[i]
  {
    Update(s, (i: MsgId) => UnreadIn(s, c, u, i), (m: Message) => m.(readAt := Some(now)))
  }

  /** `view`: 404 when the thread is empty or `u` is not a party of its
      latest message; otherwise the thread, oldest first, and the reply
      data for its latest message, after marking the thread read. */
  function View(s: Store, dir: seq<User>, u: UserId, c: MsgId, quote: (User, string) -> string, now: Time)
    : (r: Response<(seq<MsgId>, FormData)>)
    requires CounterAhead(s) && PartiesKnown(s, dir)
    ensures r.Http404? <==>
              var thread := GetConversation(s, c);
              |thread| == 0 || !Party(s.rows[thread[|thread| - 1]], u)
    ensures r.Page? ==> r.shows.0 == GetConversation(s, c) && r.store == MarkRead(s, c, u, now)
    ensures r.Page? ==>
              var thread := GetConversation(s, c);
              r.shows.1.subject == "Re: " + s.rows[thread[|thread| - 1]].subject
  {
    var thread := GetConversation(s, c);
    if |thread| == 0 then Http404
    else
      match CheckParent(s.rows[thread[|thread| - 1]], u, dir, quote)
      case None => Http404
      case Some(data) => Page(MarkRead(s, c, u, now), (thread, data))
  }

  /** After a view, `u` has nothing unread in the thread, and no other
      message changed. */
  lemma MarkReadClearsThread(s: Store, c: MsgId, u: UserId, now: Time)
    ensures var after := MarkRead(s, c, u, now);
            && (forall i :: InThread(after, c, i) ==> !Unread(u, after.rows[i]))
            && (forall i :: i in s.rows && !InThread(s, c, i) ==> after.rows[i] == s.rows[i])
  {
    var after := MarkRead(s, c, u, now);
    forall i | InThread(after, c, i) ensures !Unread(u, after.rows[i]) {
      assert InThread(s, c, i);
    }
  }

  /** Viewing lowers `u`'s unread count by exactly the messages it marked
      that `u` had not deleted. */
  lemma MarkReadLowersCount(s: Store, c: MsgId, u: UserId, now: Time)
    requires CounterAhead(s)
    ensures InboxCountFor(MarkRead(s, c, u, now), u) ==
              InboxCountFor(s, u) - |set i: MsgId | i in s.rows && UnreadIn(s, c, u, i) && s.rows[i].recipientDeletedAt.None?|
  {
    var after := MarkRead(s, c, u, now);
    var before := set i: MsgId | i in s.rows && Unread(u, s.rows[i]);
    var marked := set i: MsgId | i in s.rows && UnreadIn(s, c, u, i) && s.rows[i].recipientDeletedAt.None?;
    var left := set i: MsgId | i in after.rows && Unread(u, after.rows[i]);
    UnreadLeft(s, c, u, now);
    assert left == before - marked;
    assert marked <= before;
    assert before * marked == marked;
  }

  /** Row by row: a message is unread for `u` after the view exactly when it
      was before and the view did not mark it. */
  lemma UnreadLeft(s: Store, c: MsgId, u: UserId, now: Time)
    ensures var after := MarkRead(s, c, u, now);
            forall i :: i in s.rows ==>
              (Unread(u, after.rows[i]) <==> Unread(u, s.rows[i]) && !UnreadIn(s, c, u, i))
  {
  }

  /** Viewing a thread a second time changes nothing. */
  lemma MarkReadIdempotent(s: Store, c: MsgId, u: UserId, t1: Time, t2: Time)
    ensures MarkRead(MarkRead(s, c, u, t1), c, u, t2) == MarkRead(s, c, u, t1)
  {
    var once := MarkRead(s, c, u, t1);
    var twice := MarkRead(once, c, u, t2);
    forall i | i in once.rows ensures twice.rows[i] == once.rows[i] {
      assert !UnreadIn(once, c, u, i);
    }
    assert twice.rows == once.rows;
  }
}
